=== FILE: README.md ===
# pinyin-typing: a verified model of the drill engine and the SM-2 scheduler

pinyin-typing is a small web app for learning Hanyu Pinyin through Zhuyin (bopomofo). The
browser front end (`static/app.js`) runs five practice phases over a table of initials and
finals: phase 1 drills the table by typing or by multiple choice, phase 2 quizzes spelling
rules, phase 3 drills single characters, phase 4 common two-character words, and phase 5 is a
timed speed test. Each phase keeps a small mutable record (cards, cursor, counters, a
mistake log, a clock) that an "answer" step judges and advances. Right answers earn 5 XP, a
daily streak is kept in `localStorage`, and the dashboard shows mastery levels and the
weakest items. Answers are reported to the server, where `app/srs.py` schedules each item by
a simplified SM-2 rule and lists the items that are due.

The model keeps that shape:

- every phase record is a `class` whose methods are the app's handlers, with `modifies`
  clauses, a `Valid()` invariant (`correct + wrong == current`, `correct <= total`, the cursor
  within the cards) and postconditions that give the whole new state;
- the pure helpers (group filter, answer normaliser, tone stripping, option pool, accuracy
  and words-per-minute arithmetic, streak rule, mastery level, weakness list) are functions
  with lemmas about them;
- `shuffle` is a method over an `array` copy with a descending swap loop, proved to return a
  permutation;
- `SRSEngine.review` is a method that updates an `SRSItem` object in place and is proved
  equal to a pure schedule function `Reviewed`, about which the SM-2 properties are lemmas.

`Math.random()` becomes a sequence of rolls in `[0, 1)`, `Date.now()` and `time.time()` become
clock parameters, calendar days become integers and `localStorage` becomes a `Storage` value.
The `setTimeout` that advances the cursor after an answer is fused into the answer step, so
every invariant holds whenever a card is on screen, as long as no session is restarted while
an advance is pending (see "Left out"). Python floats and JavaScript numbers are
exact reals or integers; `Math.round(n / d)` is the nearest integer with halves rounded up.

Where the code departs from the prose around it, the model follows the code: XP is awarded
only for right answers; only phase 1 logs mistakes; phases 2, 4 and 5 never report reviews;
the live speed accuracy is 100 before any answer while the final one is 0; and phase 3 strips
tone marks from the expected pinyin only, so a typed answer that carries a tone mark is
always judged wrong.

Files, one module each: `wrappers.dfy` (Option), `seqs.dfy` (filter, slice), `text.dfy`
(trim, lower-case, tone stripping, key parsing), `shuffling.dfy`, `mappings.dfy` (phase-1
items, recognition options), `scoring.dfy`, `gamification.dfy`, `drill.dfy` (answer
outcomes, reviews, XP), `initials_finals.dfy` (phase 1), `special_rules.dfy` (phase 2),
`characters.dfy` (phase 3), `words.dfy` (phase 4), `speed.dfy` (phase 5), `dashboard.dfy`
and `srs.dfy`.

## Model

| member | source | states |
|---|---|---|
| Shuffling.PickIndex | static/app.js:183 | the swap partner of position i is at most i |
| Shuffling.Shuffle | static/app.js:180-187 | the result has the input's length and is a permutation of it (same multiset); the argument is a value and is not changed |
| Seqs.Filter | static/app.js:175-176 | a filter keeps only elements satisfying the predicate, keeps every one that does, and takes nothing that was not there |
| Seqs.FilterAppend | static/app.js:175-176 | filtering a concatenation is the concatenation of the filtered parts, so table order is preserved |
| Seqs.FilterCount | static/app.js:175-176 | a filter keeps every copy of an element that satisfies the predicate and no copy of one that does not |
| Mappings.Tagged | static/app.js:172-176 | tagging keeps length and order and adds the given type to each row |
| Mappings.TaggedMembers | static/app.js:172-176 | an item is in a tagged list exactly when it has that type and its row is in the list |
| Mappings.InGroup | static/app.js:175-176 | a row is in a group's list exactly when it is in the table and belongs to the group |
| Mappings.TaggedInGroup | static/app.js:172-176 | tagging a group's rows is the same as keeping the group's items among the tagged table, order included |
| Mappings.Phase1Items | static/app.js:170-178 | "all_initials" gives every initial tagged initial, "all_finals" every final tagged final, in table order; any other group gives the tagged initials of the group followed by the tagged finals of the group, each in table order and each row as often as the table has it |
| Mappings.Phase1ItemsCount | static/app.js:170-178 | a group's list holds each item of the group exactly as many times as the two "all" lists together do, and no item of another group |
| Mappings.EntriesOf | static/app.js:246-248 | the untagged rows of the items, in order |
| Mappings.OptionSource | static/app.js:245-248 | a group starting with "all_" draws from all initials followed by all finals; any other group draws only table rows of that group |
| Mappings.OptionSourceHoldsGroup | static/app.js:245-248 | for any other group every table row of the group is in the source |
| Mappings.DistractorPool | static/app.js:251 | no distractor has the correct pinyin, and every source row without it is a distractor |
| Mappings.BuildOptions | static/app.js:245-253 | the options have length 1 + min(3, pool size), hold the correct row exactly once, it is the only option with the correct pinyin, and every other option comes from the pool |
| Mappings.SelectOption | static/app.js:267-272 | a key selects option parseInt(key) - 1 exactly when that index is within the options |
| Mappings.DigitKeysOnFourOptions | static/app.js:266-272 | with four options, keys "1" to "4" select options 0 to 3 and "0", "5" and non-digits select nothing |
| Text.Trim | static/app.js:309 | `trim()` never lengthens the answer, and what it returns neither starts nor ends with white space |
| Text.TrimStartCuts | static/app.js:309 | trimming the front cuts only white space, and what is left does not start with white space |
| Text.TrimEndCuts | static/app.js:309 | trimming the back cuts only white space, and what is left does not end with white space |
| Text.TrimProperties | static/app.js:309 | `trim()` returns the slice left after cutting white space at both ends, starting and ending with a non-space |
| Text.TrimIdempotent | static/app.js:309 | trimming twice equals trimming once |
| Text.TrimEmptyIffBlank | static/app.js:309-310 | the trimmed answer is empty exactly when every character is white space |
| Text.Lower | static/app.js:309 | `toLowerCase()` keeps the length, leaves no capital, keeps every non-capital in its place and keeps white space exactly where it was |
| Text.LowerCharProperties | static/app.js:309 | a lower-cased character is never a capital, differs from the input exactly for capitals, and white space stays white space while nothing else becomes white space |
| Text.LowerProperties | static/app.js:309 | a lower-cased string has no capitals, keeps every non-capital and every space, and lower-casing twice equals once |
| Text.LowerKeepsPlain | static/app.js:309 | a string without capitals is its own lower-case form |
| Text.NormalizeAnswer | static/app.js:309 | `trim().toLowerCase()` gives an answer no longer than the input, with no capital and no white space at either end |
| Text.NormalizedEmptyIffBlank | static/app.js:309-310 | a normalised answer is empty exactly when the raw input is blank, which is when the handler ignores it |
| Text.NormalizedShape | static/app.js:309 | a normalised answer is no longer than the input, has no capitals and no white space at either end |
| Text.NormalizeAnswerIdempotent | static/app.js:309 | normalising twice equals normalising once |
| Text.ToneBase | static/app.js:651-654 | ā á ǎ à map to a, ē é ě è to e, ī í ǐ ì to i, ō ó ǒ ò to o, ū ú ǔ ù to u and ǖ ǘ ǚ ǜ to v; every other character, bare ü included, is kept |
| Text.StripTones | static/app.js:651-654 | tone stripping keeps the length and replaces each character by its tone base (ā á ǎ à by a, …, ǖ ǘ ǚ ǜ by v, all else kept) |
| Text.StripTonesProperties | static/app.js:651-654 | tone stripping leaves no toned vowel and keeps every other character in its place |
| Text.StripTonesIdempotent | static/app.js:651-654 | stripping twice equals stripping once |
| Text.StripTonesKeepsPlain | static/app.js:651-654 | a string without toned vowels is unchanged by stripping |
| Text.StripTonesExample | static/app.js:651-654 | "hǎo" becomes "hao" |
| Text.DigitsValue | static/app.js:268 | a single digit reads as its value |
| Text.ParseKey | static/app.js:268 | a key name parses to nothing exactly when it is empty or does not start with a digit, and a one-digit key parses to its digit |
| Scoring.RoundDiv | static/app.js:349 | the result is the integer nearest n/d, halves rounded up |
| Scoring.RoundDivIs | static/app.js:349 | the nearest integer is unique |
| Scoring.Percent | static/app.js:349 | the percentage is the integer nearest 100 * part / whole, halves rounded up; it is at least 0, at most 100 when the part is at most the whole, 100 for the whole and 0 for nothing |
| Scoring.PercentBounds | static/app.js:349 | the rounded percentage lies between 0 and 100 and hits both ends exactly |
| Scoring.SessionAccuracy | static/app.js:348-349 | phase-1 accuracy is the rounded percentage of right answers among all answers when there was one, 0 with no answers; it lies in 0..100 and is 100 with no wrong answers |
| Scoring.LiveSpeedAccuracy | static/app.js:857 | the live speed accuracy is 100 before any answer and the rounded percentage after |
| Scoring.ReportAccuracy | static/app.js:883 | the final speed accuracy is 0 before any answer and the rounded percentage after |
| Scoring.SpeedAccuraciesDisagreeOnlyWhenEmpty | static/app.js:857 | the live and final speed accuracies agree exactly when there was an answer |
| Scoring.LiveWpm | static/app.js:855-856 | live words per minute is 0 before a second has elapsed and otherwise the nearest integer to correct / elapsed * 60 |
| Scoring.LiveWpmExample | static/app.js:856 | ten right answers in thirty seconds show 20 per minute |
| Scoring.FinalWpm | static/app.js:882 | the final words per minute is the nearest integer to correct / duration * 60, and undefined for a zero duration |
| Scoring.ElapsedSeconds | static/app.js:347 | elapsed seconds are the floor of the millisecond difference over 1000 |
| Gamification.Visit | static/app.js:95-119 | the streak grows by one after a visit yesterday, is kept after a visit today and restarts at 1 otherwise; XP is kept and today becomes the last visit |
| Gamification.VisitSameDayIsIdempotent | static/app.js:105-115 | opening the app twice on one day changes nothing the second time |
| Gamification.ConsecutiveDaysCount | static/app.js:105-115 | after a break, n daily visits in a row give a streak of n |
| Gamification.AddXp | static/app.js:121-124 | adding XP raises the stored XP by the amount and changes nothing else |
| Drill.ReviewOf | static/app.js:371-373 | a reported review has quality 5 when right and 1 when wrong |
| Drill.XpFor | static/app.js:289-291 | XP is earned exactly for a right answer, at most 5 |
| Drill.XpIsFivePerCorrect | static/app.js:316-318 | over any run of answers the XP earned is 5 per right answer |
| InitialsFinals.Phase1Session.constructor | static/app.js:27-36 | the initial phase-1 record: typing mode, group "all_initials", nothing loaded |
| InitialsFinals.Phase1Session.Start | static/app.js:189-198 | an empty pool changes nothing; otherwise the cards are a permutation of the pool and counters, mistakes and clock restart |
| InitialsFinals.Phase1Session.SelectMode | static/app.js:140-146 | a mode button sets the mode and keeps the group; with an empty pool the cards, cursor, counters, mistakes and clock are kept, otherwise the cards are a permutation of the group's items, counters and mistakes are cleared and the clock is set to now |
| InitialsFinals.Phase1Session.SelectGroup | static/app.js:150-156 | a group button sets the group and keeps the mode; with an empty pool the cards, cursor, counters, mistakes and clock are kept, otherwise the cards are a permutation of that group's items, counters and mistakes are cleared and the clock is set to now |
| InitialsFinals.Phase1Session.SubmitTyped | static/app.js:307-335 | a blank answer changes nothing; otherwise the answer is right exactly when it equals the lower-cased pinyin, one counter grows, a wrong answer is logged, the review is reported and the cursor advances by one |
| InitialsFinals.Phase1Session.ShowOptions | static/app.js:245-253 | the current card's options number 1 + min(3, pool size), hold its row exactly once as the only option with its pinyin, and every other option is a row of the group's option source with another pinyin |
| InitialsFinals.Phase1Session.Choose | static/app.js:276-305 | a choice is right exactly when it is the card's pinyin; one counter grows, a wrong choice is logged, the review is reported, the cursor advances |
| InitialsFinals.Phase1Session.Finish | static/app.js:345-369 | the summary totals every card, its accuracy is the rounded percentage of right answers among the cards, its mistakes are the session's log (one entry per wrong answer), and the session report carries phase 1, the mode and the elapsed seconds |
| InitialsFinals.AnswerEveryCard | static/app.js:214-218 | a session with N cards is finished after exactly N non-blank answers |
| SpecialRules.RuleQuiz.constructor | static/app.js:37 | the initial phase-2 record shows the u-rule with no quiz |
| SpecialRules.RuleQuiz.SelectRule | static/app.js:470-475 | choosing a rule changes only the rule shown |
| SpecialRules.RuleQuiz.Start | static/app.js:502-514 | an unknown rule or one without questions changes nothing; otherwise the questions are shuffled and the counters reset |
| SpecialRules.RuleQuiz.ShowOptions | static/app.js:536 | the option buttons are a permutation of the question's options |
| SpecialRules.RuleQuiz.Answer | static/app.js:552-575 | a choice is right exactly when it is the answer; one counter grows, no review and no mistake are recorded, the cursor advances |
| SpecialRules.KeyChoice | static/app.js:545-548 | a digit key picks an option exactly when its index is in range, and the pick is one of the options |
| Characters.AsCharItems | static/app.js:604-607 | each fallback card shows a row's zhuyin and expects its pinyin |
| Characters.AsCharItemsSubMultiset | static/app.js:604-607 | fallback cards built from part of the table's rows, each used at most as often as it occurs, are a sub-multiset of the cards built from the whole table |
| Characters.FallbackCards | static/app.js:604-607 | the fallback draws min(20, table size) cards from a shuffle of the table, each from the table and none more often than the table has it |
| Characters.CharacterMatch | static/app.js:646-654 | a matching answer has the pinyin's length and no tone mark; against a pinyin without capitals or tone marks the comparison is plain equality |
| Characters.TonedAnswerNeverMatches | static/app.js:651-654 | a typed answer that contains a toned vowel is never accepted |
| Characters.ToneExample | static/app.js:646-654 | for the card "hǎo", " HAO " is accepted and "hǎo" is rejected |
| Characters.CharacterDrill.constructor | static/app.js:38 | the initial phase-3 record is empty |
| Characters.CharacterDrill.Start | static/app.js:601-616 | found characters become the cards; with none found the cards are min(20, table size) rows of the table, no row more often than the table has it; counters restart and the clock is set |
| Characters.CharacterDrill.Submit | static/app.js:644-669 | a blank answer, or one arriving when no card is left, changes nothing; otherwise it is right exactly when it equals the tone-stripped lower-cased pinyin, one counter grows, the review is reported as a "character", the cursor advances |
| Words.CommonWordsSize | static/app.js:674-730 | the built-in word list has 110 words |
| Words.WordMatch | static/app.js:778 | a matching answer has the pinyin's length and no capital; against a lower-case pinyin the comparison is plain equality |
| Words.WordDrill.constructor | static/app.js:39 | the initial phase-4 record is empty and draws from the built-in list |
| Words.WordDrill.Start | static/app.js:738-744 | a round has exactly 20 words drawn without replacement from the word list (no word more often than the list has it) and fresh counters |
| Words.WordDrill.Submit | static/app.js:746-792 | a blank answer changes nothing; otherwise it is right exactly when it equals the lower-cased pinyin, no review is reported, and after the twentieth answer a new round starts, so a card is always showing |
| Speed.SpeedTest.constructor | static/app.js:40 | the initial phase-5 record: 60 seconds, no timer |
| Speed.SpeedTest.Start | static/app.js:812-838 | the cards are a permutation of the whole table, the clock shows the full duration and both counters are 0 |
| Speed.SpeedTest.LiveStats | static/app.js:854-857 | live accuracy is 100 before any answer and the rounded percentage of right answers after; live wpm is 0 before a second passed and otherwise the integer nearest correct / elapsed * 60 |
| Speed.SpeedTest.Result | static/app.js:880-896 | the result's accuracy is 0 without answers and the rounded percentage of right answers otherwise; wpm exists exactly for a positive duration and is the integer nearest correct / duration * 60; the report carries phase 5, "speed", the duration and both counters |
| Speed.SpeedTest.Tick | static/app.js:827-835 | a tick takes one second off the clock, stops the test exactly when the clock reaches 0 and then yields the result, and changes nothing else |
| Speed.SpeedTest.Submit | static/app.js:842-845 | a blank answer changes nothing; otherwise total grows by one and correct by one only on a match, the cursor advances, and past the last card a fresh shuffle of the table starts at 0 |
| Speed.RunOut | static/app.js:827-835 | a test of d seconds with no answers ends after exactly d ticks (one for d = 0) |
| Dashboard.MasteredCount | static/app.js:908 | the mastered figure is at most the number of rows, 0 exactly when no row has three repetitions and the number of rows exactly when every row has |
| Dashboard.MasteredCountAppend | static/app.js:908 | one more row raises the mastered figure by one exactly when that row is mastered |
| Dashboard.FindProgress | static/app.js:949 | the lookup finds nothing exactly when no row has that id and type, and otherwise the first such row |
| Dashboard.MasteryLevel | static/app.js:950-956 | the level is 0 for an unpractised item, 1 for mistakes only, at least 2 from one repetition, at least 3 exactly when mastered, 4 exactly from five repetitions |
| Dashboard.MasteryLevelMonotone | static/app.js:950-956 | among practised items more repetitions never lower the level |
| Dashboard.GridLevels | static/app.js:946-962 | each grid cell shows the level of its row looked up under the grid's item type |
| Dashboard.InsertByWrong | static/app.js:923 | inserting a row into a list ordered by descending mistakes keeps it ordered and adds exactly that row |
| Dashboard.SortByWrong | static/app.js:923 | sorting orders rows by descending mistake count and keeps every row |
| Dashboard.WeakItems | static/app.js:921-924 | the weakness list has min(10, number of rows with mistakes) rows, all with mistakes, most mistakes first, none more often than the rows hold it |
| Dashboard.WeakItemsFromRows | static/app.js:921-924 | the weakness list is a sub-multiset of the progress rows |
| Dashboard.WeakItemsAreTheWorst | static/app.js:921-924 | the weakness list has min(10, number of rows with mistakes) rows, all with mistakes, no row more often than the input has it, most mistakes first, and no row with more mistakes than a listed one is left out |
| Dashboard.WithAccuracy | static/app.js:937-942 | each session is shown with 0 when it has no answers and otherwise the rounded percentage of right answers |
| Dashboard.RecentSessions | static/app.js:933-943 | the session list shows the first ten sessions, each with accuracy 0 when empty and 0..100 otherwise |
| Srs.EaseAfter | app/srs.py:34 | the new ease factor is at least 1.3; quality 5 adds 0.1, quality 4 keeps it and quality 3 takes 0.14 off, each floored at 1.3 |
| Srs.EaseMonotoneInQuality | app/srs.py:34 | a better recall never gives a smaller ease factor |
| Srs.IntervalAfter | app/srs.py:25-30 | the interval after a success is 1 day at repetition 0, 6 days at repetition 1 and otherwise the old interval times the ease factor it is given, which is the ease factor before this review |
| Srs.Reviewed | app/srs.py:19-41 | a success adds one repetition and one right answer, keeps the wrong count, sets interval 1, 6 or interval * the old ease and then the new ease; a failure zeroes interval and repetitions, adds one wrong answer and keeps ease and right answers; the next review is now + interval days |
| Srs.ReviewKeepsSound | app/srs.py:19-41 | every review keeps the ease factor at least 1.3 and an item with a streak at least a day away, and never schedules before now |
| Srs.StreakIntervalsGrow | app/srs.py:29-30 | within a streak every interval from the third on is longer than the last |
| Srs.NewSchedule | app/srs.py:6-15 | a new item has interval 0, ease 2.5, no repetitions, zero counts and is due now |
| Srs.PerfectStreak | app/srs.py:19-41 | three perfect answers to a new item give intervals 1, 6 and 16.2 days and ease 2.6, 2.7, 2.8 |
| Srs.FailureRestartsStreak | app/srs.py:35-38 | after a failure the next success waits exactly one day |
| Srs.SRSItem.constructor | app/srs.py:6-15 | a new `SRSItem` has every default and is due at creation time |
| Srs.SRSItem.Restore | app/srs.py:6-15 | an item built with every field keeps them |
| Srs.Review | app/srs.py:19-41 | the review updates the item in place to the `Reviewed` schedule and returns the same item; id and type never change |
| Srs.Snapshot | app/srs.py:47 | each item is paired with its review time, in order |
| Srs.SnapshotCount | app/srs.py:47 | pairing with review times keeps the count of every item |
| Srs.SortByReview | app/srs.py:47 | sorting orders entries by review time, earliest first, and keeps every entry |
| Srs.DueItems | app/srs.py:43-48 | `get_due_items` lists only items of the input whose review time is not after now, ordered by review time, most overdue first |
| Srs.DueItemsEarliestFirst | app/srs.py:43-48 | the due list is ordered by review time, most overdue first |
| Srs.DueItemsAreTheDueOnes | app/srs.py:43-48 | an item is in the due list exactly when it is in the input and its review time is not after now |
| Srs.DueItemsCount | app/srs.py:43-48 | the due list holds every copy of an item due at now and no copy of an item due later |
| Srs.DueItemsArePermutation | app/srs.py:43-48 | the due list is a permutation of the items whose review time is not after now |
| Srs.DueItemsExample | app/srs.py:43-48 | with items 100 s overdue, 1000 s ahead and 50 s overdue the due list is the first and the third, in that order |

## Left out

- DOM rendering, CSS classes, focus, progress bars, `alert`, and the HTML text of the rules: presentation only.
- Event-listener wiring and the `setTimeout` delays: answer and advance are one atomic step, so a second Enter pressed during the feedback delay (which the app would judge against the same card) is not modelled.
- A session restart during the feedback delay: a restart, mode or group button, a new quiz or a view switch pressed while an answer's delayed `current++` is pending (static/app.js:304, 334, 574, 668, 791) lets that increment land on the freshly started session, leaving `current` at 1 with no answer counted, so `correct + wrong == current` no longer holds. Because answer and advance are one step here, the invariants hold only for the interleavings without such a pending advance.
- The `API` wrapper and every network call: `submitReview` and the session posts appear only as the `Review` and `SessionReport` values a step returns.
- The asynchronous per-character lookup of `startPhase3` and the 30-character sample it draws: the characters it found arrive as a parameter of `Characters.CharacterDrill.Start`; only the fallback path is modelled in full.
- `static/sw.js`, `app/db.py`, `app/api.py` and `main.py`: cache, database, HTTP routes and server start-up; `pypinyin` is a foreign library.
- Floating-point rounding: SM-2 arithmetic and `Math.round` are exact; IEEE doubles could differ in the last place (16.2 days may be 16.200000000000003).
- `toLowerCase` beyond ASCII, Latin-1 and the pinyin capitals (Ā Ē Ě Ī Ō Ū Ǎ Ǐ Ǒ Ǔ Ǖ Ǘ Ǚ Ǜ): other scripts have no capitals in the app's answers.
- Time zones and `toDateString`: calendar days are integers, so daylight-saving edge cases of "yesterday" are not modelled.
- The string parsing of `localStorage` values (`parseInt` of the stored XP and streak).
- The RULES table content: quiz questions arrive as data in `SpecialRules.RuleQuiz.Start`.
- Starting a speed test while one runs (which would start a second interval timer): `Speed.SpeedTest.Start` requires no test to be running, as the setup screen is hidden during a test.
- The dashboard's `sessions.length` practice count and the item-count figure are plain lengths and have no member.
- Dashboard.SortByWrong: the sort is written stably, like JavaScript's `sort`, but stability is not stated as a property.
- Srs.DueItemsEarliestFirst: Python's stable sort keeps ties in input order; the sort is written stably but stability is not stated as a property.
- Srs.Review: `time.time()` is the `now` parameter.
- Words.WordDrill.Start: states that the 20 words are drawn without replacement, not that they are 20 different words; that also needs the 110 literal entries of the list to be pairwise different, which holds for the list but is not proved.
- Words.WordDrill.Submit: states the counters only for the answer that does not end a round; after the twentieth answer it states the fresh round's counters, and the alert with the finished round's score is presentation.

=== FILE: characters.dfy ===
/** Phase 3 (single characters): the `App.phase3` record, the fallback pool of
    `startPhase3`, and `handlePhase3Input`, the one phase that strips tone marks. */
module Characters {
  import opened Wrappers
  import opened Seqs
  import opened Text
  import opened Shuffling
  import opened Mappings
  import opened Drill

  /** A card: the prompt shown and its pinyin. */
  datatype CharItem = CharItem(character: string, pinyin: string)

  /** How many table rows the fallback pool keeps. */
  const FallbackSize: nat := 20

  /** The fallback cards: the zhuyin of a row as the prompt, its pinyin as the answer. */
  function AsCharItems(es: seq<Entry>): (r: seq<CharItem>)
    ensures |r| == |es|
    ensures forall k :: 0 <= k < |es| ==> r[k] == CharItem(es[k].zhuyin, es[k].pinyin)
  {
    if es == [] then [] else [CharItem(es[0].zhuyin, es[0].pinyin)] + AsCharItems(es[1..])
  }

  /** Turning rows into cards keeps a sub-multiset a sub-multiset. */
  lemma {:induction false} AsCharItemsSubMultiset(a: seq<Entry>, b: seq<Entry>)
    requires multiset(a) <= multiset(b)
    ensures multiset(AsCharItems(a)) <= multiset(AsCharItems(b))
    decreases |a|
  {
    if a != [] {
      var x := a[0];
      assert x in multiset(b) by {
        assert a == [x] + a[1..];
      }
      var j :| 0 <= j < |b| && b[j] == x;
      var rest := b[..j] + b[j + 1..];
      SubMultisetTail(a, b, j);
      AsCharItemsSubMultiset(a[1..], rest);
      AsCharItemsRemove(b, j);
      assert AsCharItems(a) == [AsCharItems(b)[j]] + AsCharItems(a[1..]);
    }
  }

  /** The fallback cards drawn from a shuffle of the rows: at most `FallbackSize` of them,
      and none more often than the table has it. */
  lemma FallbackCards(shuffled: seq<Entry>, all: seq<Entry>)
    requires |shuffled| == |all| && multiset(shuffled) == multiset(all)
    ensures var cards := AsCharItems(Take(shuffled, FallbackSize));
            && |cards| == Min(FallbackSize, |all|)
            && multiset(cards) <= multiset(AsCharItems(all))
            && forall it :: it in cards ==> it in AsCharItems(all)
  {
    var picked := Take(shuffled, FallbackSize);
    var cards := AsCharItems(picked);
    TakeSubMultiset(shuffled, FallbackSize);
    AsCharItemsSubMultiset(picked, all);
    forall it | it in cards ensures it in AsCharItems(all) {
      assert it in multiset(cards);
    }
  }

  /** Cards of the rows without row `j` are the cards without card `j`, and together with
      card `j` they are all the cards. */
  lemma AsCharItemsRemove(b: seq<Entry>, j: nat)
    requires j < |b|
    ensures multiset(AsCharItems(b)) == multiset(AsCharItems(b[..j] + b[j + 1..])) + multiset{AsCharItems(b)[j]}
  {
    AsCharItemsSkip(b, j);
    MultisetRemove(AsCharItems(b), j);
  }

  lemma AsCharItemsSkip(b: seq<Entry>, j: nat)
    requires j < |b|
    ensures AsCharItems(b[..j] + b[j + 1..]) == AsCharItems(b)[..j] + AsCharItems(b)[j + 1..]
  {
    var cb := AsCharItems(b);
    var rest := b[..j] + b[j + 1..];
    var cr := AsCharItems(rest);
    var without := cb[..j] + cb[j + 1..];
    forall k | 0 <= k < |cr| ensures cr[k] == without[k] {
      if k < j {
        assert rest[k] == b[k] && without[k] == cb[k];
      } else {
        assert rest[k] == b[k + 1] && without[k] == cb[k + 1];
      }
    }
  }

  /** The comparison of `handlePhase3Input`: the normalised answer against the lower-cased
      pinyin with its tone marks replaced. The typed answer itself is not stripped, so a
      matching answer carries no tone mark; against a plain pinyin (no capitals, no tone
      marks) the comparison is plain equality. */
  predicate CharacterMatch(answer: string, pinyin: string)
    ensures CharacterMatch(answer, pinyin) ==>
              |answer| == |pinyin| && forall k :: 0 <= k < |answer| ==> !IsToned(answer[k])
    ensures (forall k :: 0 <= k < |pinyin| ==> !IsUpper(pinyin[k]) && !IsToned(pinyin[k])) ==>
              (CharacterMatch(answer, pinyin) <==> answer == pinyin)
  {
    StripTonesProperties(Lower(pinyin));
    LowerKeepsPlain(pinyin);
    StripTonesKeepsPlain(pinyin);
    answer == StripTones(Lower(pinyin))
  }

  /** An answer that still carries a tone mark is never accepted, whatever the expected pinyin. */
  lemma TonedAnswerNeverMatches(answer: string, pinyin: string, k: nat)
    requires k < |answer| && IsToned(answer[k])
    ensures !CharacterMatch(answer, pinyin)
  {
    var expected := StripTones(Lower(pinyin));
    StripTonesProperties(Lower(pinyin));
    if |answer| == |expected| {
      assert !IsToned(expected[k]);
      assert answer[k] != expected[k];
    }
  }

  lemma NormalizeSpacedCapitals()
    ensures NormalizeAnswer(" HAO ") == "hao"
  {
    assert !IsSpace('H') && !IsSpace('O');
    assert LeadingSpaces(" HAO "[1..]) == 0;
    assert TrimStart(" HAO ") == "HAO ";
    assert TrailingSpaces("HAO "[..3]) == 0;
    assert TrimEnd("HAO ") == "HAO";
    var r := Lower("HAO");
    assert r[0] == LowerChar('H') == 'h';
    assert r[1] == LowerChar('A') == 'a';
    assert r[2] == LowerChar('O') == 'o';
  }

  lemma LowerKeepsHao()
    ensures Lower("hǎo") == "hǎo"
  {
    var r := Lower("hǎo");
    assert r[0] == LowerChar('h') == 'h';
    assert r[1] == LowerChar('ǎ') == 'ǎ';
    assert r[2] == LowerChar('o') == 'o';
  }

  lemma NormalizeKeepsHao()
    ensures NormalizeAnswer("hǎo") == "hǎo"
  {
    assert !IsSpace('h') && !IsSpace('o');
    assert LeadingSpaces("hǎo") == 0;
    assert TrimStart("hǎo") == "hǎo";
    assert TrailingSpaces("hǎo") == 0;
    assert TrimEnd("hǎo") == "hǎo";
    LowerKeepsHao();
  }

  /** For the card "hǎo", "hao" (in any case, with surrounding blanks) is right and "hǎo" is wrong. */
  lemma ToneExample()
    ensures CharacterMatch(NormalizeAnswer(" HAO "), "hǎo")
    ensures !CharacterMatch(NormalizeAnswer("hǎo"), "hǎo")
  {
    NormalizeSpacedCapitals();
    LowerKeepsHao();
    StripTonesExample();
    NormalizeKeepsHao();
    assert IsToned("hǎo"[1]);
    TonedAnswerNeverMatches("hǎo", "hǎo", 1);
  }

  class CharacterDrill {
    var items: seq<CharItem>
    var current: nat
    var correct: nat
    var wrong: nat
    var startTime: Option<int>

    ghost predicate Valid()
      reads this
    {
      current <= |items| && correct + wrong == current
    }

    /** Past the last card `showPhase3Card` reports the result and stops. */
    predicate Finished()
      reads this
    {
      current >= |items|
    }

    /** The initial `App.phase3` record. */
    constructor ()
      ensures Valid() && items == [] && current == 0 && correct == 0 && wrong == 0 && startTime == None
    {
      items := [];
      current, correct, wrong := 0, 0, 0;
      startTime := None;
    }

    /** `startPhase3` once the per-character lookups are done: the cards that were found,
        or, when none was, at most 20 shuffled table rows. The counters start from zero. */
    method Start(lookedUp: seq<CharItem>, t: Table, rolls: seq<real>, now: int)
      requires Valid() && ValidRolls(rolls)
      modifies this
      ensures Valid()
      ensures lookedUp != [] ==> items == lookedUp
      ensures lookedUp == [] ==>
                && |items| == Min(FallbackSize, |AllEntries(t)|)
                && multiset(items) <= multiset(AsCharItems(AllEntries(t)))
                && forall it :: it in items ==> it in AsCharItems(AllEntries(t))
      ensures current == 0 && correct == 0 && wrong == 0 && startTime == Some(now)
    {
      if lookedUp == [] {
        var all := AllEntries(t);
        var shuffled := Shuffle(all, rolls);
        var picked := Take(shuffled, FallbackSize);
        items := AsCharItems(picked);
        FallbackCards(shuffled, all);
      } else {
        items := lookedUp;
      }
      current, correct, wrong := 0, 0, 0;
      startTime := Some(now);
    }

    /** `handlePhase3Input` followed by the advance to the next card: a blank answer is
        ignored, and so is an answer after the last card (the handler fails on the missing
        card before changing anything); otherwise it is judged by `CharacterMatch`, exactly
        one counter grows, the review is reported under the item type "character", and no
        mistake is logged. */
    method Submit(raw: string) returns (o: Outcome)
      requires Valid()
      modifies this
      ensures Valid()
      ensures NormalizeAnswer(raw) == [] || old(Finished()) ==> o == Ignored && unchanged(this)
      ensures NormalizeAnswer(raw) != [] && !old(Finished()) ==>
                var item := old(items[current]);
                var ok := CharacterMatch(NormalizeAnswer(raw), item.pinyin);
                && o == Judged(ok, XpFor(ok), Some(ReviewOf(item.character, "character", ok)))
                && items == old(items) && startTime == old(startTime)
                && current == old(current) + 1
                && correct == old(correct) + (if ok then 1 else 0)
                && wrong == old(wrong) + (if ok then 0 else 1)
    {
      var answer := NormalizeAnswer(raw);
      if answer == [] || current >= |items| {
        return Ignored;
      }
      var item := items[current];
      var ok := CharacterMatch(answer, item.pinyin);
      if ok {
        correct := correct + 1;
      } else {
        wrong := wrong + 1;
      }
      o := Judged(ok, XpFor(ok), Some(ReviewOf(item.character, "character", ok)));
      current := current + 1;
    }
  }
}

=== FILE: dashboard.dfy ===
/** The dashboard (`loadDashboard`, `renderMasteryGrid`): the mastered count, the mastery
    grid levels, the ten weakest items and the recent-session list, computed from the rows
    the server returns. */
module Dashboard {
  import opened Wrappers
  import opened Seqs
  import opened Scoring
  import opened Mappings

  /** One row of `/api/progress` items. */
  datatype ProgressRow = ProgressRow(itemId: string, itemType: string, repetitions: int,
                                     wrongCount: int, correctCount: int)

  /** One row of `/api/progress` sessions. */
  datatype SessionRow = SessionRow(createdAt: int, phase: int, mode: string, duration: int,
                                   total: nat, correct: nat)

  /** An item counts as mastered from three successful repetitions in a row. */
  const MasteredReps: int := 3

  /** How many weak items and how many sessions the dashboard lists. */
  const ListSize: nat := 10

  predicate IsMastered(p: ProgressRow)
  {
    p.repetitions >= MasteredReps
  }

  /** The "mastered" figure: the rows with at least three repetitions. */
  function MasteredCount(rows: seq<ProgressRow>): (n: nat)
    ensures n <= |rows|
    ensures n == 0 <==> forall k :: 0 <= k < |rows| ==> !IsMastered(rows[k])
    ensures n == |rows| <==> forall k :: 0 <= k < |rows| ==> IsMastered(rows[k])
  {
    FilterKeepsAll(rows, IsMastered);
    FilterDropsAll(rows, IsMastered);
    |Filter(rows, IsMastered)|
  }

  /** Adding a row adds one to the figure exactly when that row is mastered. */
  lemma MasteredCountAppend(rows: seq<ProgressRow>, x: ProgressRow)
    ensures MasteredCount(rows + [x]) == MasteredCount(rows) + if IsMastered(x) then 1 else 0
  {
    FilterAppend(rows, [x], IsMastered);
    assert [x][1..] == [];
  }

  /** `progressItems.find(...)`: the first row for this item id and item type. */
  function FindProgress(rows: seq<ProgressRow>, itemId: string, itemType: string): (r: Option<ProgressRow>)
    ensures r.None? <==> forall k :: 0 <= k < |rows| ==> !(rows[k].itemId == itemId && rows[k].itemType == itemType)
    ensures r.Some? ==> exists k :: 0 <= k < |rows| && rows[k] == r.value
                          && (forall j :: 0 <= j < k ==> !(rows[j].itemId == itemId && rows[j].itemType == itemType))
    ensures r.Some? ==> r.value.itemId == itemId && r.value.itemType == itemType
  {
    if rows == [] then None
    else if rows[0].itemId == itemId && rows[0].itemType == itemType then Some(rows[0])
    else
      var r := FindProgress(rows[1..], itemId, itemType);
      if r.Some? then
        ghost var k :| 0 <= k < |rows| - 1 && rows[1..][k] == r.value
                        && (forall j :: 0 <= j < k ==> !(rows[1..][j].itemId == itemId && rows[1..][j].itemType == itemType));
        assert rows[k + 1] == r.value;
        r
      else r
  }

  /** The colour level of a grid cell, from 0 (never practised) to 4 (five repetitions). */
  function MasteryLevel(prog: Option<ProgressRow>): (level: nat)
    ensures level <= 4
    ensures prog.None? ==> level == 0
    ensures prog.Some? ==> (level >= 2 <==> prog.value.repetitions >= 1)
    ensures prog.Some? ==> (level == 1 <==> prog.value.repetitions < 1 && prog.value.wrongCount > 0)
    ensures prog.Some? ==> (level == 4 <==> prog.value.repetitions >= 5)
    ensures prog.Some? ==> (level >= 3 <==> IsMastered(prog.value))
  {
    if prog.None? then 0
    else if prog.value.repetitions >= 5 then 4
    else if prog.value.repetitions >= MasteredReps then 3
    else if prog.value.repetitions >= 1 then 2
    else if prog.value.wrongCount > 0 then 1
    else 0
  }

  /** Among practised items, more repetitions never lower the level. */
  lemma MasteryLevelMonotone(p: ProgressRow, q: ProgressRow)
    requires 1 <= p.repetitions <= q.repetitions
    ensures MasteryLevel(Some(p)) <= MasteryLevel(Some(q))
  {
  }

  /** `renderMasteryGrid`: one level per table row, looked up under the grid's item type
      ("initial" for the initials grid, "final" for the finals grid). */
  function GridLevels(entries: seq<Entry>, kind: Kind, rows: seq<ProgressRow>): (levels: seq<nat>)
    ensures |levels| == |entries|
    ensures forall k :: 0 <= k < |entries| ==>
              levels[k] == MasteryLevel(FindProgress(rows, entries[k].pinyin, KindName(kind)))
  {
    if entries == [] then []
    else [MasteryLevel(FindProgress(rows, entries[0].pinyin, KindName(kind)))]
         + GridLevels(entries[1..], kind, rows)
  }

  // ------------------------------------------------------------------ weak items

  predicate IsWeak(p: ProgressRow)
  {
    p.wrongCount > 0
  }

  ghost predicate MostWrongFirst(s: seq<ProgressRow>)
  {
    forall i, j :: 0 <= i < j < |s| ==> s[i].wrongCount >= s[j].wrongCount
  }

  /** Inserts `x` in front of the first row with no more mistakes than `x`. */
  function InsertByWrong(x: ProgressRow, s: seq<ProgressRow>): (r: seq<ProgressRow>)
    requires MostWrongFirst(s)
    ensures MostWrongFirst(r)
    ensures multiset(r) == multiset(s) + multiset{x}
    ensures r[0] == x || (s != [] && r[0] == s[0])
  {
    if s == [] || x.wrongCount >= s[0].wrongCount then
      PrependMostWrong(x, s);
      [x] + s
    else
      var tail := InsertByWrong(x, s[1..]);
      assert s == [s[0]] + s[1..];
      PrependMostWrong(s[0], tail);
      [s[0]] + tail
  }

  lemma PrependMostWrong(h: ProgressRow, t: seq<ProgressRow>)
    requires MostWrongFirst(t) && (t == [] || h.wrongCount >= t[0].wrongCount)
    ensures MostWrongFirst([h] + t)
  {
    var r := [h] + t;
    forall i, j | 0 <= i < j < |r| ensures r[i].wrongCount >= r[j].wrongCount {
      if i == 0 {
        assert r[j] == t[j - 1];
        assert t[0].wrongCount >= t[j - 1].wrongCount;
      } else {
        assert r[i] == t[i - 1] && r[j] == t[j - 1];
      }
    }
  }

  /** `.sort((a, b) => b.wrong_count - a.wrong_count)`: most mistakes first, and every row kept. */
  function SortByWrong(s: seq<ProgressRow>): (r: seq<ProgressRow>)
    ensures MostWrongFirst(r)
    ensures multiset(r) == multiset(s)
  {
    if s == [] then []
    else
      assert s == [s[0]] + s[1..];
      InsertByWrong(s[0], SortByWrong(s[1..]))
  }

  /** The weakness list: the rows with mistakes, most mistakes first, at most ten of them,
      none listed more often than the rows hold it. */
  function WeakItems(rows: seq<ProgressRow>): (r: seq<ProgressRow>)
    ensures |r| == Min(ListSize, |Filter(rows, IsWeak)|)
    ensures MostWrongFirst(r)
    ensures forall k :: 0 <= k < |r| ==> IsWeak(r[k])
    ensures multiset(r) <= multiset(rows)
  {
    WeakListShape(rows);
    Take(SortByWrong(Filter(rows, IsWeak)), ListSize)
  }

  lemma WeakListShape(rows: seq<ProgressRow>)
    ensures var r := Take(SortByWrong(Filter(rows, IsWeak)), ListSize);
            && |r| == Min(ListSize, |Filter(rows, IsWeak)|)
            && MostWrongFirst(r)
            && (forall k :: 0 <= k < |r| ==> IsWeak(r[k]))
            && multiset(r) <= multiset(rows)
  {
    var sorted := SortByWrong(Filter(rows, IsWeak));
    var r := Take(sorted, ListSize);
    SortedWeakRows(rows);
    TakeSubMultiset(sorted, ListSize);
    assert r == sorted[..|r|];
    forall i, j | 0 <= i < j < |r| ensures r[i].wrongCount >= r[j].wrongCount {
      assert r[i] == sorted[i] && r[j] == sorted[j];
    }
  }

  lemma SortedWeakRows(rows: seq<ProgressRow>)
    ensures var sorted := SortByWrong(Filter(rows, IsWeak));
            && |sorted| == |Filter(rows, IsWeak)|
            && multiset(sorted) <= multiset(rows)
            && forall k :: 0 <= k < |sorted| ==> IsWeak(sorted[k])
  {
    var weak := Filter(rows, IsWeak);
    var sorted := SortByWrong(weak);
    SortedWeakCount(rows);
    forall k | 0 <= k < |sorted| ensures IsWeak(sorted[k]) {
      assert sorted[k] in multiset(weak);
    }
  }

  /** A prefix of a list ordered by mistakes holds every element with more mistakes than
      one of its own. */
  lemma PrefixHoldsTheWorst(sorted: seq<ProgressRow>, n: nat, i: nat, x: ProgressRow)
    requires MostWrongFirst(sorted) && n <= |sorted| && i < n
    requires x in sorted && x.wrongCount > sorted[i].wrongCount
    ensures x in sorted[..n]
  {
    var k :| 0 <= k < |sorted| && sorted[k] == x;
    assert k < i;
    assert sorted[..n][k] == x;
  }

  /** Sorting the weak rows keeps their number. */
  lemma SortedWeakCount(rows: seq<ProgressRow>)
    ensures |SortByWrong(Filter(rows, IsWeak))| == |Filter(rows, IsWeak)|
  {
    var weak := Filter(rows, IsWeak);
    assert |multiset(SortByWrong(weak))| == |multiset(weak)|;
  }

  /** Every weak row reaches the sorted list. */
  lemma WeakRowIsSorted(rows: seq<ProgressRow>, x: ProgressRow)
    requires x in rows && IsWeak(x)
    ensures x in SortByWrong(Filter(rows, IsWeak))
  {
    var weak := Filter(rows, IsWeak);
    var k :| 0 <= k < |rows| && rows[k] == x;
    assert rows[k] in weak;
    assert x in multiset(weak);
    assert x in multiset(SortByWrong(weak));
  }

  /** Only weak rows reach the sorted list. */
  lemma SortedRowIsWeak(rows: seq<ProgressRow>, x: ProgressRow)
    requires x in SortByWrong(Filter(rows, IsWeak))
    ensures x in rows && IsWeak(x)
  {
    var weak := Filter(rows, IsWeak);
    assert x in multiset(SortByWrong(weak));
    assert x in multiset(weak);
    var k :| 0 <= k < |weak| && weak[k] == x;
  }

  /** The weakness list lists no row more often than the rows do. */
  lemma WeakItemsFromRows(rows: seq<ProgressRow>)
    ensures multiset(WeakItems(rows)) <= multiset(rows)
  {
    var weak := Filter(rows, IsWeak);
    var sorted := SortByWrong(weak);
    TakeSubMultiset(sorted, ListSize);
    assert multiset(sorted) == multiset(weak) && multiset(weak) <= multiset(rows);
  }

  /** The weakness list holds only rows with mistakes, ordered by mistakes, at most ten; it
      is exactly as long as it can be, and no row with more mistakes than a listed one is
      left out. */
  lemma WeakItemsAreTheWorst(rows: seq<ProgressRow>)
    ensures |WeakItems(rows)| == Min(ListSize, |Filter(rows, IsWeak)|)
    ensures MostWrongFirst(WeakItems(rows))
    ensures forall x :: x in WeakItems(rows) ==> IsWeak(x) && x in rows
    ensures multiset(WeakItems(rows)) <= multiset(rows)
    ensures forall i, x :: 0 <= i < |WeakItems(rows)| && x in rows && x.wrongCount > WeakItems(rows)[i].wrongCount
              ==> x in WeakItems(rows)
  {
    var sorted := SortByWrong(Filter(rows, IsWeak));
    SortedWeakCount(rows);
    assert WeakItems(rows) == sorted[..|WeakItems(rows)|];
    WeakItemsFromRows(rows);
    WeakItemsAreWeakRows(rows);
    WeakItemsKeepTheWorst(rows);
  }

  lemma WeakItemsAreWeakRows(rows: seq<ProgressRow>)
    ensures forall x :: x in WeakItems(rows) ==> IsWeak(x) && x in rows
  {
    var sorted := SortByWrong(Filter(rows, IsWeak));
    var r := WeakItems(rows);
    forall x | x in r ensures IsWeak(x) && x in rows {
      var k :| 0 <= k < |r| && r[k] == x;
      assert sorted[k] == x;
      SortedRowIsWeak(rows, x);
    }
  }

  lemma WeakItemsKeepTheWorst(rows: seq<ProgressRow>)
    ensures forall i, x :: 0 <= i < |WeakItems(rows)| && x in rows && x.wrongCount > WeakItems(rows)[i].wrongCount
              ==> x in WeakItems(rows)
  {
    var sorted := SortByWrong(Filter(rows, IsWeak));
    var r := WeakItems(rows);
    assert r == sorted[..|r|];
    WeakItemsAreWeakRows(rows);
    forall i, x | 0 <= i < |r| && x in rows && x.wrongCount > r[i].wrongCount ensures x in r {
      assert IsWeak(r[i]);
      WeakRowIsSorted(rows, x);
      PrefixHoldsTheWorst(sorted, |r|, i, x);
    }
  }

  // ------------------------------------------------------------------ sessions

  /** The session list: the first ten sessions with their accuracy (0 for an empty session). */
  function RecentSessions(sessions: seq<SessionRow>): (r: seq<(SessionRow, int)>)
    ensures |r| == Min(ListSize, |sessions|)
    ensures forall k :: 0 <= k < |r| ==>
              && r[k].0 == sessions[k]
              && r[k].1 == ReportAccuracy(sessions[k].correct, sessions[k].total)
    ensures forall k :: 0 <= k < |r| && r[k].0.correct <= r[k].0.total ==> 0 <= r[k].1 <= 100
  {
    WithAccuracy(Take(sessions, ListSize))
  }

  function WithAccuracy(sessions: seq<SessionRow>): (r: seq<(SessionRow, int)>)
    ensures |r| == |sessions|
    ensures forall k :: 0 <= k < |r| ==>
              r[k] == (sessions[k], ReportAccuracy(sessions[k].correct, sessions[k].total))
  {
    if sessions == [] then []
    else [(sessions[0], ReportAccuracy(sessions[0].correct, sessions[0].total))] + WithAccuracy(sessions[1..])
  }
}

=== FILE: drill.dfy ===
/** What every drill phase shares: the result of one answer, the review report sent to
    `/api/review`, the mistake log entry, and the XP the answers earn. */
module Drill {
  import opened Wrappers
  import opened Gamification

  /** The body of `POST /api/review`: quality 5 for a correct answer and 1 otherwise. */
  datatype Review = Review(itemId: string, itemType: string, correct: bool, quality: int)

  /** One entry of the phase-1 mistake log. */
  datatype Mistake = Mistake(zhuyin: string, expected: string, got: string)

  /** The body of `POST /api/session`. */
  datatype SessionReport = SessionReport(phase: int, mode: string, duration: int, total: int, correct: int)

  /** What one submission did: nothing (blank input), or a judgement with the XP it
      earned and the review it reported, if the phase reports one. */
  datatype Outcome = Ignored | Judged(isCorrect: bool, xp: nat, review: Option<Review>)

  /** `submitReview(itemId, itemType, correct)`. */
  function ReviewOf(itemId: string, itemType: string, isCorrect: bool): (r: Review)
    ensures r.quality == 5 || r.quality == 1
    ensures r.correct == isCorrect && (r.quality == 5 <==> isCorrect)
  {
    Review(itemId, itemType, isCorrect, if isCorrect then 5 else 1)
  }

  /** The XP for one judged answer: `addXP(5)` runs only on a correct answer. */
  function XpFor(isCorrect: bool): (xp: nat)
    ensures xp > 0 <==> isCorrect
    ensures xp <= XpPerCorrect
  {
    if isCorrect then XpPerCorrect else 0
  }

  function XpEarned(outcomes: seq<Outcome>): nat
  {
    if outcomes == [] then 0
    else XpEarned(outcomes[..|outcomes| - 1]) + (match outcomes[|outcomes| - 1] case Ignored => 0 case Judged(_, xp, _) => xp)
  }

  function CorrectCount(outcomes: seq<Outcome>): nat
  {
    if outcomes == [] then 0
    else CorrectCount(outcomes[..|outcomes| - 1]) + (if outcomes[|outcomes| - 1].Judged? && outcomes[|outcomes| - 1].isCorrect then 1 else 0)
  }

  /** Outcomes whose XP follows the award rule. */
  ghost predicate AwardsFollowRule(outcomes: seq<Outcome>)
  {
    forall k :: 0 <= k < |outcomes| && outcomes[k].Judged? ==> outcomes[k].xp == XpFor(outcomes[k].isCorrect)
  }

  /** Over any run of answers the XP earned is five per correct answer: wrong and blank
      submissions earn nothing. */
  lemma {:induction false} XpIsFivePerCorrect(outcomes: seq<Outcome>)
    requires AwardsFollowRule(outcomes)
    ensures XpEarned(outcomes) == XpPerCorrect * CorrectCount(outcomes)
  {
    if outcomes != [] {
      var init := outcomes[..|outcomes| - 1];
      assert AwardsFollowRule(init) by {
        forall k | 0 <= k < |init| && init[k].Judged? ensures init[k].xp == XpFor(init[k].isCorrect) {
          assert init[k] == outcomes[k];
        }
      }
      XpIsFivePerCorrect(init);
    }
  }
}

=== FILE: gamification.dfy ===
/** The persisted experience points and daily streak (`initGamification`, `addXP`).
    `localStorage` becomes a `Storage` value and calendar dates become day numbers. */
module Gamification {
  import opened Wrappers

  /** The XP awarded for one correct answer in every phase. */
  const XpPerCorrect: nat := 5

  /** The three stored keys; an absent `pinyin_xp` or `pinyin_streak` reads as 0. */
  datatype Storage = Storage(xp: int, streak: int, lastVisit: Option<int>)

  /** The streak rule run when the app starts on day `today`: the streak grows by one after a
      visit yesterday, is kept after a visit earlier today, and restarts at 1 otherwise. The
      XP is written back unchanged and today becomes the last visit. */
  function Visit(s: Storage, today: int): (r: Storage)
    ensures r.xp == s.xp && r.lastVisit == Some(today)
    ensures s.lastVisit == Some(today - 1) ==> r.streak == s.streak + 1
    ensures s.lastVisit == Some(today) ==> r.streak == s.streak
    ensures s.lastVisit != Some(today - 1) && s.lastVisit != Some(today) ==> r.streak == 1
  {
    var streak :=
      if s.lastVisit == Some(today - 1) then s.streak + 1
      else if s.lastVisit != Some(today) then 1
      else s.streak;
    Storage(s.xp, streak, Some(today))
  }

  /** A second start on the same day changes nothing. */
  lemma VisitSameDayIsIdempotent(s: Storage, today: int)
    ensures Visit(Visit(s, today), today) == Visit(s, today)
  {
  }

  /** Starting the app on `n` consecutive days from `first`. */
  function VisitDays(s: Storage, first: int, n: nat): Storage
  {
    if n == 0 then s else Visit(VisitDays(s, first, n - 1), first + n - 1)
  }

  /** A run of daily visits after a break (or a first visit) yields a streak equal to the
      number of days in the run. */
  lemma {:induction false} ConsecutiveDaysCount(s: Storage, first: int, n: nat)
    requires n >= 1
    requires s.lastVisit != Some(first - 1) && s.lastVisit != Some(first)
    ensures VisitDays(s, first, n).streak == n
    ensures VisitDays(s, first, n).lastVisit == Some(first + n - 1)
  {
    if n > 1 {
      ConsecutiveDaysCount(s, first, n - 1);
    }
  }

  /** `addXP(amount)`: the stored XP grows by `amount`; nothing else changes. */
  function AddXp(s: Storage, amount: int): (r: Storage)
    ensures r.xp == s.xp + amount && r.streak == s.streak && r.lastVisit == s.lastVisit
  {
    s.(xp := s.xp + amount)
  }
}

=== FILE: initials_finals.dfy ===
/** Phase 1 (initials and finals): the `App.phase1` record and its handlers
    `startPhase1Session`, `handlePhase1Input`, `showRecognitionOptions`,
    `handleRecognitionChoice` and `finishPhase1Session`. The delayed `p.current++` of the
    handlers is part of the answer step here: an answer and the advance to the next card
    are one step. */
module InitialsFinals {
  import opened Wrappers
  import opened Seqs
  import opened Text
  import opened Shuffling
  import opened Mappings
  import opened Scoring
  import opened Drill

  datatype Mode = Typing | Recognition

  function ModeName(m: Mode): string
  {
    match m
    case Typing => "typing"
    case Recognition => "recognition"
  }

  /** What the end-of-session screen shows and reports. */
  datatype Summary = Summary(total: nat, correct: nat, wrong: nat, accuracy: int, seconds: int,
                             mistakes: seq<Mistake>, report: SessionReport)

  class Phase1Session {
    var mode: Mode
    var group: string
    var items: seq<Item>
    var current: nat
    var correct: nat
    var wrong: nat
    var mistakes: seq<Mistake>
    var startTime: Option<int>

    /** Every card before the cursor was answered exactly once, and every wrong answer left
        one entry in the mistake log. */
    ghost predicate Valid()
      reads this
    {
      && current <= |items|
      && correct + wrong == current
      && |mistakes| == wrong
      && (items != [] ==> startTime.Some?)
    }

    /** `showPhase1Card` finishes the session once the cursor has passed the last card. */
    predicate Finished()
      reads this
    {
      current >= |items|
    }

    /** The initial `App.phase1` record. */
    constructor ()
      ensures Valid()
      ensures mode == Typing && group == "all_initials"
      ensures items == [] && current == 0 && correct == 0 && wrong == 0 && mistakes == []
      ensures startTime == None
    {
      mode := Typing;
      group := "all_initials";
      items := [];
      current, correct, wrong := 0, 0, 0;
      mistakes := [];
      startTime := None;
    }

    /** `startPhase1Session`: an empty pool leaves everything as it was; otherwise the cards
        are a shuffle of the pool and every counter starts again from zero. */
    method Start(t: Table, rolls: seq<real>, now: int)
      requires Valid() && ValidRolls(rolls)
      modifies this
      ensures Valid()
      ensures mode == old(mode) && group == old(group)
      ensures Phase1Items(t, group) == [] ==> unchanged(this)
      ensures Phase1Items(t, group) != [] ==>
                && |items| == |Phase1Items(t, group)|
                && multiset(items) == multiset(Phase1Items(t, group))
                && current == 0 && correct == 0 && wrong == 0 && mistakes == []
                && startTime == Some(now)
    {
      var pool := Phase1Items(t, group);
      if |pool| == 0 {
        return;
      }
      items := Shuffle(pool, rolls);
      current, correct, wrong := 0, 0, 0;
      mistakes := [];
      startTime := Some(now);
    }

    /** A mode button: set the mode and start a new session. With an empty pool only the
        mode changes. */
    method SelectMode(m: Mode, t: Table, rolls: seq<real>, now: int)
      requires Valid() && ValidRolls(rolls)
      modifies this
      ensures Valid() && mode == m && group == old(group)
      ensures Phase1Items(t, group) == [] ==>
                && items == old(items) && current == old(current) && correct == old(correct)
                && wrong == old(wrong) && mistakes == old(mistakes) && startTime == old(startTime)
      ensures Phase1Items(t, group) != [] ==>
                && |items| == |Phase1Items(t, group)|
                && multiset(items) == multiset(Phase1Items(t, group))
                && current == 0 && correct == 0 && wrong == 0 && mistakes == []
                && startTime == Some(now)
    {
      mode := m;
      Start(t, rolls, now);
    }

    /** A group button: set the group and start a new session. With an empty pool only the
        group changes. */
    method SelectGroup(g: string, t: Table, rolls: seq<real>, now: int)
      requires Valid() && ValidRolls(rolls)
      modifies this
      ensures Valid() && group == g && mode == old(mode)
      ensures Phase1Items(t, g) == [] ==>
                && items == old(items) && current == old(current) && correct == old(correct)
                && wrong == old(wrong) && mistakes == old(mistakes) && startTime == old(startTime)
      ensures Phase1Items(t, g) != [] ==>
                && |items| == |Phase1Items(t, g)|
                && multiset(items) == multiset(Phase1Items(t, g))
                && current == 0 && correct == 0 && wrong == 0 && mistakes == []
                && startTime == Some(now)
    {
      group := g;
      Start(t, rolls, now);
    }

    /** `handlePhase1Input` followed by the advance to the next card. A blank answer is
        ignored. Otherwise the trimmed, lower-cased answer is right exactly when it equals the
        lower-cased pinyin; exactly one counter grows, a wrong answer is logged, the review
        is reported and the cursor moves on by one. */
    method SubmitTyped(raw: string) returns (o: Outcome)
      requires Valid() && !Finished()
      modifies this
      ensures Valid()
      ensures NormalizeAnswer(raw) == [] ==> o == Ignored && unchanged(this)
      ensures NormalizeAnswer(raw) != [] ==>
                var item := old(items[current]);
                var answer := NormalizeAnswer(raw);
                var ok := answer == Lower(item.entry.pinyin);
                && o == Judged(ok, XpFor(ok), Some(ReviewOf(item.entry.pinyin, KindName(item.kind), ok)))
                && items == old(items) && mode == old(mode) && group == old(group)
                && startTime == old(startTime)
                && current == old(current) + 1
                && correct == old(correct) + (if ok then 1 else 0)
                && wrong == old(wrong) + (if ok then 0 else 1)
                && mistakes == old(mistakes) + (if ok then [] else [Mistake(item.entry.zhuyin, item.entry.pinyin, answer)])
    {
      var answer := NormalizeAnswer(raw);
      if answer == [] {
        return Ignored;
      }
      var item := items[current];
      var ok := answer == Lower(item.entry.pinyin);
      if ok {
        correct := correct + 1;
      } else {
        wrong := wrong + 1;
        mistakes := mistakes + [Mistake(item.entry.zhuyin, item.entry.pinyin, answer)];
      }
      o := Judged(ok, XpFor(ok), Some(ReviewOf(item.entry.pinyin, KindName(item.kind), ok)));
      current := current + 1;
    }

    /** `showRecognitionOptions` for the current card: the correct row exactly once, the only
        option with its pinyin, among at most three distractors drawn from the rows of the
        group's option source that have another pinyin. */
    method ShowOptions(t: Table, rolls1: seq<real>, rolls2: seq<real>) returns (options: seq<Entry>)
      requires Valid() && !Finished() && ValidRolls(rolls1) && ValidRolls(rolls2)
      ensures var correctRow := items[current].entry;
              && |options| == 1 + Min(3, |DistractorPool(OptionSource(t, group), correctRow)|)
              && multiset(options)[correctRow] == 1
              && (forall k :: 0 <= k < |options| ==> (options[k].pinyin == correctRow.pinyin <==> options[k] == correctRow))
              && forall k :: 0 <= k < |options| && options[k] != correctRow ==>
                   options[k] in DistractorPool(OptionSource(t, group), correctRow)
    {
      options := BuildOptions(t, group, items[current].entry, rolls1, rolls2);
    }

    /** `handleRecognitionChoice` followed by the advance to the next card: the choice is
        right exactly when it is the card's pinyin; no normalisation is applied. */
    method Choose(chosen: string) returns (o: Outcome)
      requires Valid() && !Finished()
      modifies this
      ensures Valid()
      ensures var item := old(items[current]);
              var ok := chosen == item.entry.pinyin;
              && o == Judged(ok, XpFor(ok), Some(ReviewOf(item.entry.pinyin, KindName(item.kind), ok)))
              && items == old(items) && mode == old(mode) && group == old(group)
              && startTime == old(startTime)
              && current == old(current) + 1
              && correct == old(correct) + (if ok then 1 else 0)
              && wrong == old(wrong) + (if ok then 0 else 1)
              && mistakes == old(mistakes) + (if ok then [] else [Mistake(item.entry.zhuyin, item.entry.pinyin, chosen)])
    {
      var item := items[current];
      var ok := chosen == item.entry.pinyin;
      if ok {
        correct := correct + 1;
      } else {
        wrong := wrong + 1;
        mistakes := mistakes + [Mistake(item.entry.zhuyin, item.entry.pinyin, chosen)];
      }
      o := Judged(ok, XpFor(ok), Some(ReviewOf(item.entry.pinyin, KindName(item.kind), ok)));
      current := current + 1;
    }

    /** `finishPhase1Session`: every card was answered once, so the total is the number of
        cards; accuracy is the rounded percentage of right answers among them, and the mistake
        log, one entry per wrong answer, is shown as it stands. */
    function Finish(now: int): (s: Summary)
      reads this
      requires Valid() && Finished() && items != []
      ensures s.total == |items| == s.correct + s.wrong
      ensures s.correct == correct && s.wrong == wrong && s.mistakes == mistakes && |s.mistakes| == s.wrong
      ensures s.accuracy == Percent(correct, |items|)
      ensures 0 <= s.accuracy <= 100
      ensures s.wrong == 0 ==> s.accuracy == 100
      ensures s.correct == 0 ==> s.accuracy == 0
      ensures s.report == SessionReport(1, ModeName(mode), s.seconds, s.total, s.correct)
      ensures 1000 * s.seconds <= now - startTime.value < 1000 * s.seconds + 1000
    {
      var seconds := ElapsedSeconds(startTime.value, now);
      var total := correct + wrong;
      Summary(total, correct, wrong, SessionAccuracy(correct, wrong), seconds, mistakes,
              SessionReport(1, ModeName(mode), seconds, total, correct))
    }
  }

  /** A session with N cards is finished after exactly N non-blank answers, whatever they are. */
  method AnswerEveryCard(s: Phase1Session, answers: seq<string>)
    requires s.Valid() && s.current == 0
    requires |answers| == |s.items|
    requires forall k :: 0 <= k < |answers| ==> NormalizeAnswer(answers[k]) != []
    modifies s
    ensures s.Valid() && s.Finished() && s.items == old(s.items)
    ensures s.correct + s.wrong == |s.items| == s.current
  {
    var k := 0;
    while k < |answers|
      invariant s.Valid() && s.items == old(s.items)
      invariant 0 <= k <= |answers| && s.current == k
    {
      var _ := s.SubmitTyped(answers[k]);
      k := k + 1;
    }
  }
}

=== FILE: mappings.dfy ===
/** The initials/finals tables of `/api/mappings` and what phase 1 draws from them:
    `getPhase1Items` and the option list of `showRecognitionOptions`. */
module Mappings {
  import opened Wrappers
  import opened Seqs
  import opened Text
  import opened Shuffling

  /** One row of the mapping table. A missing hint is the empty string. */
  datatype Entry = Entry(pinyin: string, zhuyin: string, group: string, hint: string)

  datatype Kind = Initial | Final

  /** A table row tagged with the `type` that `getPhase1Items` adds. */
  datatype Item = Item(entry: Entry, kind: Kind)

  datatype Table = Table(initials: seq<Entry>, finals: seq<Entry>)

  /** The `item_type` string sent with a review. */
  function KindName(k: Kind): string
  {
    match k
    case Initial => "initial"
    case Final => "final"
  }

  /** `[...initials, ...finals]`. */
  function AllEntries(t: Table): seq<Entry>
  {
    t.initials + t.finals
  }

  /** `es.map(i => ({ ...i, type: k }))`. */
  function Tagged(es: seq<Entry>, k: Kind): (r: seq<Item>)
    ensures |r| == |es|
    ensures forall i :: 0 <= i < |r| ==> r[i] == Item(es[i], k)
  {
    if es == [] then [] else [Item(es[0], k)] + Tagged(es[1..], k)
  }

  lemma TaggedMembers(es: seq<Entry>, k: Kind)
    ensures forall it :: it in Tagged(es, k) <==> it.kind == k && it.entry in es
  {
    var r := Tagged(es, k);
    forall it: Item | it.kind == k && it.entry in es ensures it in r {
      var i :| 0 <= i < |es| && es[i] == it.entry;
      assert r[i] == it;
    }
  }

  /** The test of `filter(i => i.group === group)`, on rows and on tagged rows. */
  function EntryInGroup(g: string): Entry -> bool
  {
    (e: Entry) => e.group == g
  }

  function ItemInGroup(g: string): Item -> bool
  {
    (it: Item) => it.entry.group == g
  }

  /** The rows of one group, in table order. */
  function InGroup(es: seq<Entry>, g: string): (r: seq<Entry>)
    ensures forall e :: e in r <==> e in es && e.group == g
  {
    var r := Filter(es, EntryInGroup(g));
    assert forall e :: e in es && e.group == g ==> e in r by {
      forall e | e in es && e.group == g ensures e in r {
        var i :| 0 <= i < |es| && es[i] == e;
      }
    }
    r
  }

  /** Tagging the rows of a group is picking that group out of the tagged rows. */
  lemma {:induction false} TaggedInGroup(es: seq<Entry>, g: string, k: Kind)
    ensures Tagged(InGroup(es, g), k) == Filter(Tagged(es, k), ItemInGroup(g))
  {
    if es != [] {
      TaggedInGroup(es[1..], g, k);
      assert Tagged(es, k)[1..] == Tagged(es[1..], k);
      if es[0].group == g {
        assert InGroup(es, g) == [es[0]] + InGroup(es[1..], g);
        assert Tagged(InGroup(es, g), k)[1..] == Tagged(InGroup(es[1..], g), k);
      } else {
        assert InGroup(es, g) == InGroup(es[1..], g);
      }
    }
  }

  /** `getPhase1Items(group)`. "all_initials" tags every initial, "all_finals" every final;
      any other group gives that group's initials and then that group's finals, each in
      table order: the tagged table rows that belong to the group. */
  function Phase1Items(t: Table, g: string): (r: seq<Item>)
    ensures g == "all_initials" ==>
              |r| == |t.initials| && forall i :: 0 <= i < |r| ==> r[i] == Item(t.initials[i], Initial)
    ensures g == "all_finals" ==>
              |r| == |t.finals| && forall i :: 0 <= i < |r| ==> r[i] == Item(t.finals[i], Final)
    ensures g != "all_initials" && g != "all_finals" ==>
              r == Filter(Tagged(t.initials, Initial), ItemInGroup(g)) + Filter(Tagged(t.finals, Final), ItemInGroup(g))
    ensures g != "all_initials" && g != "all_finals" ==>
              forall it :: it in r <==>
                (it.entry.group == g && if it.kind == Initial then it.entry in t.initials else it.entry in t.finals)
    ensures forall i, j :: 0 <= i < j < |r| && r[j].kind == Initial ==> r[i].kind == Initial
  {
    if g == "all_initials" then Tagged(t.initials, Initial)
    else if g == "all_finals" then Tagged(t.finals, Final)
    else
      GroupItems(t, g);
      Tagged(InGroup(t.initials, g), Initial) + Tagged(InGroup(t.finals, g), Final)
  }

  /** The items of an ordinary group: the group's tagged rows, initials first. */
  lemma GroupItems(t: Table, g: string)
    ensures var r := Tagged(InGroup(t.initials, g), Initial) + Tagged(InGroup(t.finals, g), Final);
            && r == Filter(Tagged(t.initials, Initial), ItemInGroup(g)) + Filter(Tagged(t.finals, Final), ItemInGroup(g))
            && (forall it :: it in r <==>
                  (it.entry.group == g && if it.kind == Initial then it.entry in t.initials else it.entry in t.finals))
            && forall i, j :: 0 <= i < j < |r| && r[j].kind == Initial ==> r[i].kind == Initial
  {
    TaggedInGroup(t.initials, g, Initial);
    TaggedInGroup(t.finals, g, Final);
    GroupItemsMembers(t, g);
    GroupItemsInitialsFirst(InGroup(t.initials, g), InGroup(t.finals, g));
  }

  lemma GroupItemsMembers(t: Table, g: string)
    ensures forall it :: it in Tagged(InGroup(t.initials, g), Initial) + Tagged(InGroup(t.finals, g), Final) <==>
              (it.entry.group == g && if it.kind == Initial then it.entry in t.initials else it.entry in t.finals)
  {
    TaggedMembers(InGroup(t.initials, g), Initial);
    TaggedMembers(InGroup(t.finals, g), Final);
  }

  lemma GroupItemsInitialsFirst(ins: seq<Entry>, fins: seq<Entry>)
    ensures var r := Tagged(ins, Initial) + Tagged(fins, Final);
            forall i, j :: 0 <= i < j < |r| && r[j].kind == Initial ==> r[i].kind == Initial
  {
  }

  /** An ordinary group lists each item of the group as often as the whole table does, and
      no item of another group. */
  lemma Phase1ItemsCount(t: Table, g: string, it: Item)
    requires g != "all_initials" && g != "all_finals"
    ensures multiset(Phase1Items(t, g))[it]
         == if it.entry.group == g
            then multiset(Phase1Items(t, "all_initials") + Phase1Items(t, "all_finals"))[it] else 0
  {
    assert Phase1Items(t, "all_initials") == Tagged(t.initials, Initial);
    assert Phase1Items(t, "all_finals") == Tagged(t.finals, Final);
    FilterCount(Phase1Items(t, "all_initials"), ItemInGroup(g), it);
    FilterCount(Phase1Items(t, "all_finals"), ItemInGroup(g), it);
  }

  // ---------------------------------------------------------------- recognition options

  /** The rows `showRecognitionOptions` draws distractors from: the whole untagged table
      for a group starting with "all_", otherwise the group's phase-1 items, which are
      table rows of that group. */
  function OptionSource(t: Table, g: string): (r: seq<Entry>)
    ensures StartsWith(g, "all_") ==> r == t.initials + t.finals
    ensures !StartsWith(g, "all_") ==>
              forall k :: 0 <= k < |r| ==> (r[k] in t.initials || r[k] in t.finals) && r[k].group == g
  {
    if StartsWith(g, "all_") then AllEntries(t) else GroupRows(t, g)
  }

  /** The untagged phase-1 items of an ordinary group: table rows of that group. */
  function GroupRows(t: Table, g: string): (r: seq<Entry>)
    requires !StartsWith(g, "all_")
    ensures forall k :: 0 <= k < |r| ==> (r[k] in t.initials || r[k] in t.finals) && r[k].group == g
  {
    GroupOptionRows(t, g);
    EntriesOf(Phase1Items(t, g))
  }

  lemma GroupOptionRows(t: Table, g: string)
    requires !StartsWith(g, "all_")
    ensures var r := EntriesOf(Phase1Items(t, g));
            forall k :: 0 <= k < |r| ==> (r[k] in t.initials || r[k] in t.finals) && r[k].group == g
  {
    assert g != "all_initials" && g != "all_finals" by {
      assert StartsWith("all_initials", "all_") && StartsWith("all_finals", "all_");
    }
    var items := Phase1Items(t, g);
    forall k | 0 <= k < |items| ensures items[k].entry.group == g {
      assert items[k] in items;
    }
  }

  /** Every table row of an ordinary group is among the group's distractor source. */
  lemma OptionSourceHoldsGroup(t: Table, g: string, e: Entry)
    requires !StartsWith(g, "all_") && (e in t.initials || e in t.finals) && e.group == g
    ensures e in OptionSource(t, g)
  {
    assert g != "all_initials" && g != "all_finals" by {
      assert StartsWith("all_initials", "all_") && StartsWith("all_finals", "all_");
    }
    var items := Phase1Items(t, g);
    var it := if e in t.initials then Item(e, Initial) else Item(e, Final);
    assert it in items;
    var k :| 0 <= k < |items| && items[k] == it;
    assert GroupRows(t, g)[k] == e;
  }

  function EntriesOf(items: seq<Item>): (r: seq<Entry>)
    ensures |r| == |items|
    ensures forall i :: 0 <= i < |r| ==> r[i] == items[i].entry
  {
    if items == [] then [] else [items[0].entry] + EntriesOf(items[1..])
  }

  /** `allItems.filter(i => i.pinyin !== correctItem.pinyin)`: no distractor shares the
      correct pinyin, and every row of the source that does not is a distractor. */
  function DistractorPool(source: seq<Entry>, correct: Entry): (r: seq<Entry>)
    ensures forall k :: 0 <= k < |r| ==> r[k].pinyin != correct.pinyin && r[k] in source
    ensures forall k :: 0 <= k < |source| && source[k].pinyin != correct.pinyin ==> source[k] in r
  {
    Filter(source, (e: Entry) => e.pinyin != correct.pinyin)
  }

  /** The option list of a recognition card: three (or fewer) shuffled distractors shuffled
      together with the correct row. The correct row is there exactly once and is the only
      option carrying the correct pinyin; there are `1 + min(3, |pool|)` options. */
  method BuildOptions(t: Table, g: string, correct: Entry, rolls1: seq<real>, rolls2: seq<real>)
    returns (options: seq<Entry>)
    requires ValidRolls(rolls1) && ValidRolls(rolls2)
    ensures |options| == 1 + Min(3, |DistractorPool(OptionSource(t, g), correct)|)
    ensures multiset(options)[correct] == 1
    ensures forall k :: 0 <= k < |options| ==>
              (options[k].pinyin == correct.pinyin <==> options[k] == correct)
    ensures forall k :: 0 <= k < |options| && options[k] != correct ==>
              options[k] in DistractorPool(OptionSource(t, g), correct)
  {
    var pool := DistractorPool(OptionSource(t, g), correct);
    var shuffled := Shuffle(pool, rolls1);
    var wrongOptions := Take(shuffled, 3);
    assert forall e :: e in wrongOptions ==> e in multiset(pool);
    assert correct !in wrongOptions;
    options := Shuffle([correct] + wrongOptions, rolls2);
    assert multiset(options)[correct] == multiset([correct])[correct] + multiset(wrongOptions)[correct];
    forall k | 0 <= k < |options| && options[k] != correct
      ensures options[k] in pool && options[k].pinyin != correct.pinyin
    {
      assert options[k] in multiset([correct] + wrongOptions);
      assert options[k] in wrongOptions;
      assert options[k] in multiset(shuffled);
    }
  }

  /** The digit shortcut `idx = parseInt(e.key) - 1`, honoured only when
      `0 <= idx < options.length`. */
  function SelectOption<T>(options: seq<T>, key: string): (r: Option<nat>)
    ensures r.Some? ==> r.value < |options|
    ensures r.Some? <==> ParseKey(key).Some? && 1 <= ParseKey(key).value <= |options|
    ensures r.Some? ==> r.value == ParseKey(key).value - 1
  {
    match ParseKey(key)
    case None => None
    case Some(n) => if 1 <= n <= |options| then Some(n - 1) else None
  }

  /** On a four-option card the keys "1".."4" pick options 0..3 and "0" picks nothing. */
  lemma DigitKeysOnFourOptions<T>(options: seq<T>)
    requires |options| == 4
    ensures SelectOption(options, "1") == Some(0) && SelectOption(options, "4") == Some(3)
    ensures SelectOption(options, "0") == None && SelectOption(options, "5") == None
    ensures SelectOption(options, "Enter") == None
  {
  }
}

=== FILE: scoring.dfy ===
/** The score arithmetic of static/app.js: `Math.round` of a ratio, the phase-1 and speed
    accuracies with their two different zero-answer conventions, and words per minute. */
module Scoring {
  import opened Wrappers

  /** `Math.round(n / d)` on exact rationals: the integer nearest to n/d, halves rounded up. */
  function RoundDiv(n: int, d: int): (r: int)
    requires d > 0
    ensures 2 * d * r <= 2 * n + d < 2 * d * r + 2 * d
  {
    (2 * n + d) / (2 * d)
  }

  /** `Math.round(part / whole * 100)`: the integer nearest to 100 * part / whole, halves up. */
  function Percent(part: nat, whole: nat): (p: int)
    requires whole > 0
    ensures 2 * whole * p <= 200 * part + whole < 2 * whole * p + 2 * whole
    ensures p >= 0
    ensures part <= whole ==> p <= 100
    ensures part == whole ==> p == 100
    ensures part == 0 ==> p == 0
  {
    PercentBounds(part, whole);
    RoundDiv(100 * part, whole)
  }

  lemma PercentBounds(part: nat, whole: nat)
    requires whole > 0
    ensures RoundDiv(100 * part, whole) >= 0
    ensures part <= whole ==> RoundDiv(100 * part, whole) <= 100
    ensures part == whole ==> RoundDiv(100 * part, whole) == 100
    ensures part == 0 ==> RoundDiv(100 * part, whole) == 0
  {
    if part <= whole {
      DivBelow(200 * part + whole, 2 * whole, 101);
    }
    if part == whole {
      RoundDivIs(100 * part, whole, 100);
    }
    if part == 0 {
      RoundDivIs(0, whole, 0);
    }
  }

  /** `RoundDiv` is determined by its contract. */
  lemma RoundDivIs(n: int, d: int, m: int)
    requires d > 0
    requires 2 * d * m <= 2 * n + d < 2 * d * m + 2 * d
    ensures RoundDiv(n, d) == m
  {
    var r := RoundDiv(n, d);
    SignOfProduct(2 * d, r - m + 1);
    SignOfProduct(2 * d, m - r + 1);
  }

  lemma DivBelow(x: int, y: int, k: int)
    requires 0 <= x < y * k && y > 0
    ensures 0 <= x / y < k
  {
    var q := x / y;
    assert y * q <= x;
    SignOfProduct(y, k - q);
  }

  /** A positive factor does not change the sign of a product. */
  lemma SignOfProduct(w: int, x: int)
    requires w > 0
    ensures w * x > 0 <==> x > 0
  {
  }

  /** Phase-1 summary accuracy (`finishPhase1Session`): 0 when nothing was answered. */
  function SessionAccuracy(correct: nat, wrong: nat): (a: int)
    ensures 0 <= a <= 100
    ensures correct + wrong == 0 ==> a == 0
    ensures correct + wrong > 0 ==> a == Percent(correct, correct + wrong)
    ensures correct == 0 ==> a == 0
    ensures wrong == 0 && correct > 0 ==> a == 100
  {
    var total := correct + wrong;
    if total > 0 then Percent(correct, total) else 0
  }

  /** The live accuracy of the speed test (`showSpeedCard`): 100 before any answer. */
  function LiveSpeedAccuracy(correct: nat, total: nat): (a: int)
    requires correct <= total
    ensures 0 <= a <= 100
    ensures total == 0 ==> a == 100
    ensures total > 0 ==> a == Percent(correct, total)
  {
    if total > 0 then Percent(correct, total) else 100
  }

  /** The accuracy of a finished session, as `endSpeedTest` posts it and the dashboard's
      session list shows it: 0 when nothing was answered. */
  function ReportAccuracy(correct: nat, total: nat): (a: int)
    ensures a >= 0
    ensures correct <= total ==> a <= 100
    ensures total == 0 ==> a == 0
    ensures total > 0 ==> a == Percent(correct, total)
  {
    if total > 0 then Percent(correct, total) else 0
  }

  /** The live and the final speed accuracy agree exactly when something was answered. */
  lemma SpeedAccuraciesDisagreeOnlyWhenEmpty(correct: nat, total: nat)
    requires correct <= total
    ensures LiveSpeedAccuracy(correct, total) == ReportAccuracy(correct, total) <==> total > 0
  {
  }

  /** Live words per minute, `Math.round(correct / elapsed * 60)`, and 0 before a second has passed. */
  function LiveWpm(correct: nat, elapsed: int): (w: int)
    ensures elapsed <= 0 ==> w == 0
    ensures elapsed > 0 ==> 2 * elapsed * w <= 120 * correct + elapsed < 2 * elapsed * w + 2 * elapsed
    ensures w >= 0
  {
    if elapsed > 0 then RoundDiv(60 * correct, elapsed) else 0
  }

  /** Ten correct answers in thirty seconds are twenty per minute. */
  lemma LiveWpmExample()
    ensures LiveWpm(10, 30) == 20
  {
  }

  /** Final words per minute over the whole duration (`endSpeedTest`); a zero duration has
      no number (JavaScript yields NaN or Infinity). */
  function FinalWpm(correct: nat, duration: nat): (w: Option<int>)
    ensures w.None? <==> duration == 0
    ensures duration > 0 ==> w.value >= 0 && 2 * duration * w.value <= 120 * correct + duration
    ensures duration > 0 ==> 120 * correct + duration < 2 * duration * w.value + 2 * duration
  {
    if duration == 0 then None else Some(RoundDiv(60 * correct, duration))
  }

  /** Whole seconds between two millisecond clock readings, `Math.floor((now - start) / 1000)`. */
  function ElapsedSeconds(start: int, now: int): (s: int)
    ensures 1000 * s <= now - start < 1000 * s + 1000
  {
    (now - start) / 1000
  }
}

=== FILE: seqs.dfy ===
/** Array helpers the front end uses through `Array.prototype`: `filter` and `slice(0, n)`. */
module Seqs {

  function Min(a: int, b: int): int { if a <= b then a else b }

  /** `s.filter(p)`: the elements satisfying `p`, in their original order. */
  function Filter<T>(s: seq<T>, p: T -> bool): (r: seq<T>)
    ensures |r| <= |s|
    ensures forall k :: 0 <= k < |r| ==> r[k] in s && p(r[k])
    ensures forall k :: 0 <= k < |s| && p(s[k]) ==> s[k] in r
    ensures multiset(r) <= multiset(s)
  {
    if s == [] then []
    else
      assert s == [s[0]] + s[1..];
      if p(s[0]) then [s[0]] + Filter(s[1..], p) else Filter(s[1..], p)
  }

  /** Filtering a concatenation filters each part and keeps the parts in order:
      together with the singleton case this is what "preserves order" means. */
  lemma {:induction false} FilterAppend<T>(a: seq<T>, b: seq<T>, p: T -> bool)
    ensures Filter(a + b, p) == Filter(a, p) + Filter(b, p)
  {
    if a == [] {
      assert a + b == b;
    } else {
      assert (a + b)[1..] == a[1..] + b;
      FilterAppend(a[1..], b, p);
    }
  }

  /** Filtering keeps every copy of a satisfying element and no copy of any other. */
  lemma {:induction false} FilterCount<T>(s: seq<T>, p: T -> bool, x: T)
    ensures multiset(Filter(s, p))[x] == if p(x) then multiset(s)[x] else 0
  {
    if s != [] {
      assert s == [s[0]] + s[1..];
      FilterCount(s[1..], p, x);
    }
  }

  /** Filtering drops nothing exactly when every element satisfies the predicate. */
  lemma {:induction false} FilterKeepsAll<T>(s: seq<T>, p: T -> bool)
    ensures |Filter(s, p)| == |s| <==> forall k :: 0 <= k < |s| ==> p(s[k])
  {
    if s != [] {
      FilterKeepsAll(s[1..], p);
      if forall k :: 0 <= k < |s| ==> p(s[k]) {
        assert forall k :: 0 <= k < |s| - 1 ==> p(s[1..][k]) by {
          forall k | 0 <= k < |s| - 1 ensures p(s[1..][k]) {
            assert s[1..][k] == s[k + 1];
          }
        }
      } else if p(s[0]) {
        var k :| 0 <= k < |s| && !p(s[k]);
        assert s[1..][k - 1] == s[k];
      }
    }
  }

  /** Filtering keeps nothing exactly when no element satisfies the predicate. */
  lemma FilterDropsAll<T>(s: seq<T>, p: T -> bool)
    ensures Filter(s, p) == [] <==> forall k :: 0 <= k < |s| ==> !p(s[k])
  {
    var r := Filter(s, p);
    if r != [] {
      var k :| 0 <= k < |s| && s[k] == r[0];
    }
  }

  /** A sequence holds what it holds without its element `j`, plus that element. */
  lemma MultisetRemove<T>(s: seq<T>, j: nat)
    requires j < |s|
    ensures multiset(s) == multiset(s[..j] + s[j + 1..]) + multiset{s[j]}
  {
    assert s == s[..j] + [s[j]] + s[j + 1..];
  }

  /** Taking the first element of `a` out of `a` and one copy of it out of `b` keeps `a`
      a sub-multiset of `b`. */
  lemma SubMultisetTail<T>(a: seq<T>, b: seq<T>, j: nat)
    requires a != [] && j < |b| && b[j] == a[0] && multiset(a) <= multiset(b)
    ensures multiset(a[1..]) <= multiset(b[..j] + b[j + 1..])
  {
    var rest := b[..j] + b[j + 1..];
    MultisetRemove(b, j);
    assert a == [a[0]] + a[1..];
    assert multiset(a) == multiset(a[1..]) + multiset{a[0]};
    forall y ensures multiset(a[1..])[y] <= multiset(rest)[y] {
      assert multiset(a)[y] <= multiset(b)[y];
    }
  }

  /** `s.slice(0, n)` for a non-negative `n`. */
  function Take<T>(s: seq<T>, n: nat): seq<T>
  {
    s[..Min(n, |s|)]
  }

  /** A prefix holds nothing its sequence does not. */
  lemma TakeSubMultiset<T>(s: seq<T>, n: nat)
    ensures multiset(Take(s, n)) <= multiset(s)
  {
    var m := Min(n, |s|);
    assert s == s[..m] + s[m..];
  }
}

=== FILE: shuffling.dfy ===
/** `shuffle(arr)` of static/app.js: Fisher–Yates over a copy of the argument.
    `Math.random()` is replaced by a stream of draws passed in by the caller. */
module Shuffling {

  /** A stream of `Math.random()` results: every draw lies in [0, 1). */
  ghost predicate ValidRolls(rolls: seq<real>)
  {
    forall k :: 0 <= k < |rolls| ==> 0.0 <= rolls[k] < 1.0
  }

  /** The k-th draw of the stream; a stream that runs out keeps answering 0. */
  function Roll(rolls: seq<real>, k: nat): (x: real)
    requires ValidRolls(rolls)
    ensures 0.0 <= x < 1.0
  {
    if k < |rolls| then rolls[k] else 0.0
  }

  /** `Math.floor(Math.random() * (i + 1))`: an index in `0..i`. */
  function PickIndex(roll: real, i: nat): (j: nat)
    requires 0.0 <= roll < 1.0
    ensures j <= i
  {
    (roll * (i + 1) as real).Floor
  }

  /** Copies `arr` into a fresh array and, for `i` from the last index down to 1, swaps
      element `i` with a drawn element `j <= i`. The result is a permutation of `arr`;
      `arr` itself is a value and cannot change. */
  method Shuffle<T>(arr: seq<T>, rolls: seq<real>) returns (r: seq<T>)
    requires ValidRolls(rolls)
    ensures |r| == |arr|
    ensures multiset(r) == multiset(arr)
  {
    var a := new T[|arr|](k requires 0 <= k < |arr| => arr[k]);
    assert a[..] == arr;
    var i := a.Length - 1;
    var drawn: nat := 0;
    while i > 0
      invariant -1 <= i < a.Length
      invariant multiset(a[..]) == multiset(arr)
      decreases i
    {
      var j := PickIndex(Roll(rolls, drawn), i);
      a[i], a[j] := a[j], a[i];
      i := i - 1;
      drawn := drawn + 1;
    }
    r := a[..];
  }
}

=== FILE: special_rules.dfy ===
/** Phase 2 (spelling rules): the `App.phase2` record and `startRuleQuiz`,
    `showRuleQuizCard` (option order and the digit shortcuts) and `handleRuleAnswer`.
    The rule texts and their quizzes are data and come in as parameters. */
module SpecialRules {
  import opened Wrappers
  import opened Shuffling
  import opened Mappings
  import opened Drill

  /** One quiz question of a rule: `{ q, options, answer, explain }`. */
  datatype QuizItem = QuizItem(question: string, options: seq<string>, answer: string, explain: string)

  class RuleQuiz {
    var rule: string
    var quizItems: seq<QuizItem>
    var current: nat
    var correct: nat
    var wrong: nat

    ghost predicate Valid()
      reads this
    {
      current <= |quizItems| && correct + wrong == current
    }

    /** Once the cursor has passed the last question the quiz closes (`showRuleQuizCard`). */
    predicate Finished()
      reads this
    {
      current >= |quizItems|
    }

    /** The initial `App.phase2` record. */
    constructor ()
      ensures Valid() && rule == "u-rule" && quizItems == [] && current == 0 && correct == 0 && wrong == 0
    {
      rule := "u-rule";
      quizItems := [];
      current, correct, wrong := 0, 0, 0;
    }

    /** A rule button: remember which rule is shown. */
    method SelectRule(ruleId: string)
      requires Valid()
      modifies this
      ensures Valid() && rule == ruleId
      ensures quizItems == old(quizItems) && current == old(current)
      ensures correct == old(correct) && wrong == old(wrong)
    {
      rule := ruleId;
    }

    /** `startRuleQuiz(ruleId)`: an unknown rule (`None`) or a rule without questions leaves
        everything as it was; otherwise the questions are shuffled and the counters reset. */
    method Start(quiz: Option<seq<QuizItem>>, rolls: seq<real>)
      requires Valid() && ValidRolls(rolls)
      modifies this
      ensures Valid() && rule == old(rule)
      ensures (quiz.None? || quiz.value == []) ==> unchanged(this)
      ensures quiz.Some? && quiz.value != [] ==>
                && |quizItems| == |quiz.value| && multiset(quizItems) == multiset(quiz.value)
                && current == 0 && correct == 0 && wrong == 0
    {
      if quiz.None? || quiz.value == [] {
        return;
      }
      quizItems := Shuffle(quiz.value, rolls);
      current, correct, wrong := 0, 0, 0;
    }

    /** The option buttons of the current question: its options in a shuffled order. */
    method ShowOptions(rolls: seq<real>) returns (options: seq<string>)
      requires Valid() && !Finished() && ValidRolls(rolls)
      ensures |options| == |quizItems[current].options|
      ensures multiset(options) == multiset(quizItems[current].options)
    {
      options := Shuffle(quizItems[current].options, rolls);
    }

    /** `handleRuleAnswer` followed by the advance to the next question: right exactly when
        the choice is the question's answer. XP only for a right answer; no review is
        reported and no mistake is logged in this phase. */
    method Answer(chosen: string) returns (o: Outcome)
      requires Valid() && !Finished()
      modifies this
      ensures Valid()
      ensures var ok := chosen == old(quizItems[current]).answer;
              && o == Judged(ok, XpFor(ok), None)
              && quizItems == old(quizItems) && rule == old(rule)
              && current == old(current) + 1
              && correct == old(correct) + (if ok then 1 else 0)
              && wrong == old(wrong) + (if ok then 0 else 1)
    {
      var ok := chosen == quizItems[current].answer;
      if ok {
        correct := correct + 1;
      } else {
        wrong := wrong + 1;
      }
      o := Judged(ok, XpFor(ok), None);
      current := current + 1;
    }
  }

  /** The digit shortcut of a question: the chosen option, if the key names one. */
  function KeyChoice(options: seq<string>, key: string): (r: Option<string>)
    ensures r.Some? <==> SelectOption(options, key).Some?
    ensures r.Some? ==> r.value in options
  {
    match SelectOption(options, key)
    case None => None
    case Some(i) => Some(options[i])
  }
}

=== FILE: speed.dfy ===
/** Phase 5 (speed test): the `App.phase5` record, `startSpeedTest` with its one-second
    countdown, `showSpeedCard` (endless reshuffling and the live figures),
    `handleSpeedInput` and `endSpeedTest`. */
module Speed {
  import opened Wrappers
  import opened Text
  import opened Shuffling
  import opened Mappings
  import opened Scoring
  import opened Drill

  /** What `endSpeedTest` shows and posts: words per minute (none for a zero-length test,
      where the source divides by zero), accuracy, the answer count and the session report. */
  datatype SpeedResult = SpeedResult(wpm: Option<int>, accuracy: int, total: nat, report: SessionReport)

  class SpeedTest {
    var duration: nat
    var timeLeft: int
    var total: nat
    var correct: nat
    var items: seq<Entry>
    var current: nat
    /** Whether the interval timer is set. */
    var running: bool

    ghost predicate Valid()
      reads this
    {
      && correct <= total
      && current <= |items|
      && timeLeft <= duration
      && (running ==> 0 <= timeLeft && current < |items|)
    }

    /** The initial `App.phase5` record: a 60-second test, no timer. */
    constructor ()
      ensures Valid() && !running && duration == 60 && timeLeft == 0
      ensures total == 0 && correct == 0 && items == [] && current == 0
    {
      duration, timeLeft := 60, 0;
      total, correct := 0, 0;
      items, current := [], 0;
      running := false;
    }

    /** `startSpeedTest(duration)`: every table row in a shuffled order, the clock at the full
        duration, both counters at zero, the timer set. The table must have a row, since the
        first card is shown at once. */
    method Start(d: nat, t: Table, rolls: seq<real>)
      requires Valid() && !running && AllEntries(t) != [] && ValidRolls(rolls)
      modifies this
      ensures Valid() && running
      ensures duration == d && timeLeft == d && total == 0 && correct == 0 && current == 0
      ensures multiset(items) == multiset(AllEntries(t))
    {
      items := Shuffle(AllEntries(t), rolls);
      duration, timeLeft := d, d;
      total, correct, current := 0, 0, 0;
      running := true;
    }

    /** The figures `showSpeedCard` displays while the test runs: the right answers per
        minute over the seconds elapsed so far, rounded to the nearest integer, and the
        rounded accuracy, 100 before any answer. */
    function LiveStats(): (r: (int, int))
      reads this
      requires Valid()
      ensures r.0 >= 0 && 0 <= r.1 <= 100
      ensures total == 0 ==> r.1 == 100
      ensures total > 0 ==> r.1 == Percent(correct, total)
      ensures timeLeft == duration ==> r.0 == 0
      ensures var e := duration - timeLeft;
              e > 0 ==> 2 * e * r.0 <= 120 * correct + e < 2 * e * r.0 + 2 * e
    {
      (LiveWpm(correct, duration - timeLeft), LiveSpeedAccuracy(correct, total))
    }

    /** The figures and the report of `endSpeedTest`: right answers per minute over the whole
        duration, rounded, and the rounded accuracy, 0 when nothing was answered. */
    function Result(): (r: SpeedResult)
      reads this
      requires Valid()
      ensures r.total == total && r.report == SessionReport(5, "speed", duration, total, correct)
      ensures r.wpm.None? <==> duration == 0
      ensures duration > 0 ==> 2 * duration * r.wpm.value <= 120 * correct + duration < 2 * duration * r.wpm.value + 2 * duration
      ensures 0 <= r.accuracy <= 100 && (total == 0 ==> r.accuracy == 0)
      ensures total > 0 ==> r.accuracy == Percent(correct, total)
    {
      SpeedResult(FinalWpm(correct, duration), ReportAccuracy(correct, total), total,
                  SessionReport(5, "speed", duration, total, correct))
    }

    /** One tick of the interval timer: a second less on the clock; when it reaches zero the
        timer is cleared and the result is produced. Nothing else changes. */
    method Tick() returns (result: Option<SpeedResult>)
      requires Valid() && running
      modifies this
      ensures Valid()
      ensures timeLeft == old(timeLeft) - 1
      ensures running <==> timeLeft > 0
      ensures result.Some? <==> !running
      ensures result.Some? ==> result.value == Result()
      ensures duration == old(duration) && total == old(total) && correct == old(correct)
      ensures items == old(items) && current == old(current)
    {
      timeLeft := timeLeft - 1;
      if timeLeft <= 0 {
        running := false;
        result := Some(Result());
      } else {
        result := None;
      }
    }

    /** `handleSpeedInput` and the next `showSpeedCard`: a blank answer is ignored; otherwise
        the answer is counted, judged against the lower-cased pinyin, XP only when right, no
        review is reported. Past the last row a fresh shuffle of the table starts over. */
    method Submit(raw: string, t: Table, rolls: seq<real>) returns (o: Outcome)
      requires Valid() && running && AllEntries(t) != [] && ValidRolls(rolls)
      modifies this
      ensures Valid() && running
      ensures NormalizeAnswer(raw) == [] ==> o == Ignored && unchanged(this)
      ensures NormalizeAnswer(raw) != [] ==>
                var ok := NormalizeAnswer(raw) == Lower(old(items[current]).pinyin);
                && o == Judged(ok, XpFor(ok), None)
                && total == old(total) + 1
                && correct == old(correct) + (if ok then 1 else 0)
                && duration == old(duration) && timeLeft == old(timeLeft)
                && (old(current) + 1 < |old(items)| ==> items == old(items) && current == old(current) + 1)
                && (old(current) + 1 == |old(items)| ==>
                      current == 0 && multiset(items) == multiset(AllEntries(t)))
    {
      var answer := NormalizeAnswer(raw);
      if answer == [] {
        return Ignored;
      }
      var expected := Lower(items[current].pinyin);
      var ok := answer == expected;
      total := total + 1;
      if ok {
        correct := correct + 1;
      }
      o := Judged(ok, XpFor(ok), None);
      if current + 1 < |items| {
        current := current + 1;
      } else {
        var all := AllEntries(t);
        items := Shuffle(all, rolls);
        current := 0;
      }
    }
  }

  /** Letting the clock run out with no answers: a test started at `d` seconds ends after
      exactly `d` ticks (one tick for a zero-length test), with its counters untouched. */
  method RunOut(s: SpeedTest) returns (ticks: nat, result: SpeedResult)
    requires s.Valid() && s.running && s.timeLeft == s.duration
    modifies s
    ensures s.Valid() && !s.running
    ensures ticks == if s.duration == 0 then 1 else s.duration
    ensures result == s.Result()
    ensures s.total == old(s.total) && s.correct == old(s.correct) && s.duration == old(s.duration)
  {
    ticks := 0;
    var r := s.Tick();
    ticks := 1;
    while r.None?
      invariant s.Valid() && s.duration == old(s.duration)
      invariant s.total == old(s.total) && s.correct == old(s.correct)
      invariant s.timeLeft == s.duration - ticks
      invariant 1 <= ticks
      invariant s.running <==> s.timeLeft > 0
      invariant s.timeLeft >= 0 || ticks == 1
      invariant r.Some? <==> !s.running
      invariant r.Some? ==> r.value == s.Result()
      decreases s.timeLeft
    {
      r := s.Tick();
      ticks := ticks + 1;
    }
    result := r.value;
  }
}

=== FILE: srs.dfy ===
/** The simplified SM-2 scheduler of app/srs.py: the per-item schedule, `review` and
    `get_due_items`. Clock readings are parameters; Python floats are exact reals here. */
module Srs {
  import opened Seqs

  /** The ease factor never drops below this. */
  const MinEase: real := 1.3
  /** The ease factor of a new item. */
  const InitialEase: real := 2.5
  const SecondsPerDay: real := 86400.0

  function MaxReal(a: real, b: real): real
  {
    if a >= b then a else b
  }

  /** The mutable fields of an `SRSItem`: interval in days, ease factor, successful
      repetitions in a row, next review time in seconds, and the two answer counts. */
  datatype Schedule = Schedule(interval: real, easeFactor: real, repetitions: int,
                               nextReview: real, correctCount: int, wrongCount: int)

  /** A review counts as a success when the answer was right with quality 3 or more. */
  predicate Recalled(correct: bool, quality: int)
  {
    correct && quality >= 3
  }

  /** The SM-2 ease penalty for a recall `u` grades below perfect. */
  function Penalty(u: int): real
  {
    u as real * (0.08 + u as real * 0.02)
  }

  /** The SM-2 ease update, floored at 1.3. */
  function EaseAfter(ef: real, quality: int): (e: real)
    ensures e >= MinEase
    ensures quality == 5 ==> e == MaxReal(MinEase, ef + 0.1)
    ensures quality == 4 ==> e == MaxReal(MinEase, ef)
    ensures quality == 3 ==> e == MaxReal(MinEase, ef - 0.14)
  {
    MaxReal(MinEase, ef + 0.1 - Penalty(5 - quality))
  }

  /** One grade worse never costs less. */
  lemma PenaltyStep(u: int)
    requires u >= 0
    ensures Penalty(u) <= Penalty(u + 1)
  {
    var x := u as real;
    assert (u + 1) as real == x + 1.0;
    assert Penalty(u + 1) == Penalty(u) + 0.1 + 0.04 * x;
  }

  lemma {:induction false} PenaltyMonotone(u: int, d: nat)
    requires u >= 0
    ensures Penalty(u) <= Penalty(u + d)
    decreases d
  {
    if d > 0 {
      PenaltyMonotone(u, d - 1);
      PenaltyStep(u + d - 1);
    }
  }

  /** A better recall never gives a smaller ease factor. */
  lemma EaseMonotoneInQuality(ef: real, q1: int, q2: int)
    requires q1 <= q2 <= 5
    ensures EaseAfter(ef, q1) <= EaseAfter(ef, q2)
  {
    PenaltyMonotone(5 - q2, q2 - q1);
  }

  /** The next interval after a success: one day, then six days, then the last interval
      multiplied by the ease factor. */
  function IntervalAfter(repetitions: int, interval: real, ef: real): (i: real)
    ensures repetitions == 0 ==> i == 1.0
    ensures repetitions == 1 ==> i == 6.0
    ensures repetitions != 0 && repetitions != 1 ==> i == interval * ef
    ensures 0 <= repetitions <= 1 ==> i >= 1.0
    ensures repetitions >= 2 && interval >= 1.0 && ef >= MinEase ==> i >= MinEase * interval
  {
    if repetitions == 0 then 1.0
    else if repetitions == 1 then 6.0
    else interval * ef
  }

  /** `SRSEngine.review` on the fields of an item, at clock reading `now`. */
  function Reviewed(s: Schedule, correct: bool, quality: int, now: real): (t: Schedule)
    ensures Recalled(correct, quality) ==>
              && t.repetitions == s.repetitions + 1 && t.correctCount == s.correctCount + 1
              && t.wrongCount == s.wrongCount && t.easeFactor >= MinEase
              && t.interval == IntervalAfter(s.repetitions, s.interval, s.easeFactor)
              && t.easeFactor == EaseAfter(s.easeFactor, quality)
    ensures !Recalled(correct, quality) ==>
              && t.interval == 0.0 && t.repetitions == 0 && t.wrongCount == s.wrongCount + 1
              && t.easeFactor == s.easeFactor && t.correctCount == s.correctCount
              && t.nextReview == now
    ensures t.nextReview == now + t.interval * SecondsPerDay
  {
    if Recalled(correct, quality) then
      var interval := IntervalAfter(s.repetitions, s.interval, s.easeFactor);
      Schedule(interval, EaseAfter(s.easeFactor, quality), s.repetitions + 1,
               now + interval * SecondsPerDay, s.correctCount + 1, s.wrongCount)
    else
      Schedule(0.0, s.easeFactor, 0, now, s.correctCount, s.wrongCount + 1)
  }

  /** What the scheduler keeps true of an item it has only ever reviewed itself: the ease
      factor is at least 1.3, and an item with a success streak waits at least a day. */
  ghost predicate Sound(s: Schedule)
  {
    && s.easeFactor >= MinEase && s.interval >= 0.0 && s.repetitions >= 0
    && (s.repetitions >= 1 ==> s.interval >= 1.0)
    && s.correctCount >= 0 && s.wrongCount >= 0
  }

  /** Every review keeps a sound schedule sound, and a success never moves the next review
      earlier than a failure at the same moment would. */
  lemma ReviewKeepsSound(s: Schedule, correct: bool, quality: int, now: real)
    requires Sound(s)
    ensures Sound(Reviewed(s, correct, quality, now))
    ensures Reviewed(s, correct, quality, now).nextReview >= now
  {
    var t := Reviewed(s, correct, quality, now);
    if Recalled(correct, quality) && s.repetitions >= 2 {
      assert t.interval >= MinEase * s.interval;
    }
  }

  /** Within a success streak the interval keeps growing: from the third success on, each
      interval is at least 1.3 times the one before. */
  lemma StreakIntervalsGrow(s: Schedule, quality: int, now: real)
    requires Sound(s) && s.repetitions >= 2 && quality >= 3
    ensures Reviewed(s, true, quality, now).interval >= MinEase * s.interval
    ensures Reviewed(s, true, quality, now).interval > s.interval
  {
  }

  /** The schedule of a new item created at `now`. */
  function NewSchedule(now: real): (s: Schedule)
    ensures Sound(s) && s.repetitions == 0 && s.interval == 0.0 && s.nextReview == now
    ensures s.easeFactor == InitialEase && s.correctCount == 0 && s.wrongCount == 0
  {
    Schedule(0.0, InitialEase, 0, now, 0, 0)
  }

  /** Three perfect answers to a new item: reviews after 1, 6 and 16.2 days, the ease
      factor rising by 0.1 each time. */
  lemma PerfectStreak(now: real)
    ensures var s1 := Reviewed(NewSchedule(now), true, 5, now);
            var s2 := Reviewed(s1, true, 5, now);
            var s3 := Reviewed(s2, true, 5, now);
            && s1.interval == 1.0 && s1.easeFactor == 2.6
            && s2.interval == 6.0 && s2.easeFactor == 2.7
            && s3.interval == 16.2 && s3.easeFactor == 2.8 && s3.repetitions == 3
  {
  }

  /** A failure after any streak starts the item over: its next success waits one day. */
  lemma FailureRestartsStreak(s: Schedule, quality: int, now: real, later: real)
    requires quality >= 3
    ensures var f := Reviewed(s, false, quality, now);
            && f.repetitions == 0 && f.interval == 0.0
            && Reviewed(f, true, quality, later).interval == 1.0
            && Reviewed(f, true, quality, later).nextReview == later + SecondsPerDay
  {
  }

  /** An `SRSItem` record. */
  class SRSItem {
    const itemId: string
    const itemType: string
    var interval: real
    var easeFactor: real
    var repetitions: int
    var nextReview: real
    var correctCount: int
    var wrongCount: int

    function State(): Schedule
      reads this
    {
      Schedule(interval, easeFactor, repetitions, nextReview, correctCount, wrongCount)
    }

    /** `SRSItem(item_id, item_type)` with every default: due at once. */
    constructor (id: string, kind: string, now: real)
      ensures itemId == id && itemType == kind && State() == NewSchedule(now)
    {
      itemId, itemType := id, kind;
      interval, easeFactor, repetitions := 0.0, InitialEase, 0;
      nextReview := now;
      correctCount, wrongCount := 0, 0;
    }

    /** An item rebuilt from a stored row, with every field given. */
    constructor Restore(id: string, kind: string, s: Schedule)
      ensures itemId == id && itemType == kind && State() == s
    {
      itemId, itemType := id, kind;
      interval, easeFactor, repetitions := s.interval, s.easeFactor, s.repetitions;
      nextReview := s.nextReview;
      correctCount, wrongCount := s.correctCount, s.wrongCount;
    }
  }

  /** `SRSEngine.review`: updates the item in place and returns that same item. */
  method Review(item: SRSItem, correct: bool, quality: int, now: real) returns (r: SRSItem)
    modifies item
    ensures r == item
    ensures item.State() == Reviewed(old(item.State()), correct, quality, now)
  {
    if correct && quality >= 3 {
      if item.repetitions == 0 {
        item.interval := 1.0;
      } else if item.repetitions == 1 {
        item.interval := 6.0;
      } else {
        item.interval := item.interval * item.easeFactor;
      }
      item.repetitions := item.repetitions + 1;
      item.correctCount := item.correctCount + 1;
      item.easeFactor := MaxReal(MinEase, item.easeFactor + 0.1 - Penalty(5 - quality));
    } else {
      item.interval := 0.0;
      item.repetitions := 0;
      item.wrongCount := item.wrongCount + 1;
    }
    item.nextReview := now + item.interval * SecondsPerDay;
    r := item;
  }

  // ------------------------------------------------------------------ get_due_items

  /** An item together with its review time, as read when `get_due_items` runs. */
  type Stamped = (SRSItem, real)

  function Snapshot(items: seq<SRSItem>): (r: seq<Stamped>)
    reads items
    ensures |r| == |items|
    ensures forall k :: 0 <= k < |items| ==> r[k] == (items[k], items[k].nextReview)
  {
    if items == [] then [] else [(items[0], items[0].nextReview)] + Snapshot(items[1..])
  }

  predicate IsDue(now: real, p: Stamped)
  {
    p.1 <= now
  }

  /** The filter of `get_due_items`, as a value. */
  function DueAt(now: real): Stamped -> bool
  {
    (p: Stamped) => IsDue(now, p)
  }

  ghost predicate EarliestFirst(s: seq<Stamped>)
  {
    forall i, j :: 0 <= i < j < |s| ==> s[i].1 <= s[j].1
  }

  /** Inserts `x` after the entries due no later than it. */
  function InsertByReview(x: Stamped, s: seq<Stamped>): (r: seq<Stamped>)
    requires EarliestFirst(s)
    ensures EarliestFirst(r)
    ensures multiset(r) == multiset(s) + multiset{x}
    ensures r[0] == x || (s != [] && r[0] == s[0])
  {
    if s == [] || x.1 <= s[0].1 then
      PrependEarliest(x, s);
      [x] + s
    else
      var tail := InsertByReview(x, s[1..]);
      assert s == [s[0]] + s[1..];
      PrependEarliest(s[0], tail);
      [s[0]] + tail
  }

  lemma PrependEarliest(h: Stamped, t: seq<Stamped>)
    requires EarliestFirst(t) && (t == [] || h.1 <= t[0].1)
    ensures EarliestFirst([h] + t)
  {
    var r := [h] + t;
    forall i, j | 0 <= i < j < |r| ensures r[i].1 <= r[j].1 {
      if i == 0 {
        assert r[j] == t[j - 1];
        assert t[0].1 <= t[j - 1].1;
      } else {
        assert r[i] == t[i - 1] && r[j] == t[j - 1];
      }
    }
  }

  /** `due.sort(key=next_review)`: most overdue first, every entry kept. */
  function SortByReview(s: seq<Stamped>): (r: seq<Stamped>)
    ensures EarliestFirst(r)
    ensures multiset(r) == multiset(s)
  {
    if s == [] then []
    else
      assert s == [s[0]] + s[1..];
      InsertByReview(s[0], SortByReview(s[1..]))
  }

  function Items(s: seq<Stamped>): (r: seq<SRSItem>)
    ensures |r| == |s| && forall k :: 0 <= k < |s| ==> r[k] == s[k].0
  {
    if s == [] then [] else [s[0].0] + Items(s[1..])
  }

  /** `get_due_items`: the items whose review time is not after `now`, sorted by it. Only
      items of the input that are due are listed, most overdue first. */
  function DueItems(items: seq<SRSItem>, now: real): (r: seq<SRSItem>)
    reads items
    ensures forall x :: x in r ==> x in items && x.nextReview <= now
    ensures forall i, j :: 0 <= i < j < |r| ==> r[i].nextReview <= r[j].nextReview
  {
    DueListShape(items, now);
    Items(SortByReview(Filter(Snapshot(items), DueAt(now))))
  }

  lemma DueListShape(items: seq<SRSItem>, now: real)
    ensures var r := Items(SortByReview(Filter(Snapshot(items), DueAt(now))));
            && (forall x :: x in r ==> x in items && x.nextReview <= now)
            && forall i, j :: 0 <= i < j < |r| ==> r[i].nextReview <= r[j].nextReview
  {
    var sorted := SortByReview(Filter(Snapshot(items), DueAt(now)));
    var r := Items(sorted);
    forall x | x in r ensures x in items && x.nextReview <= now {
      var k :| 0 <= k < |r| && r[k] == x;
      SortedDueStamps(items, now, sorted[k]);
    }
    forall i, j | 0 <= i < j < |r| ensures r[i].nextReview <= r[j].nextReview {
      SortedDueStamps(items, now, sorted[i]);
      SortedDueStamps(items, now, sorted[j]);
      assert sorted[i].1 <= sorted[j].1;
    }
  }

  /** Every entry of the sorted due list is a stamp taken from `items`. */
  lemma SortedDueStamps(items: seq<SRSItem>, now: real, p: Stamped)
    requires p in SortByReview(Filter(Snapshot(items), DueAt(now)))
    ensures p.0 in items && p.1 == p.0.nextReview && p.1 <= now
  {
    var snap := Snapshot(items);
    var due := Filter(snap, DueAt(now));
    assert multiset(due)[p] > 0 by {
      assert p in multiset(SortByReview(due));
    }
    FilterCount(snap, DueAt(now), p);
    assert p in multiset(snap);
    StampInSnapshot(items, p);
  }

  /** A stamp taken by `Snapshot` is an item paired with its own review time. */
  lemma StampInSnapshot(items: seq<SRSItem>, p: Stamped)
    requires p in Snapshot(items)
    ensures p.0 in items && p.1 == p.0.nextReview
  {
    var snap := Snapshot(items);
    var j :| 0 <= j < |snap| && snap[j] == p;
    assert p.0 == items[j];
  }

  /** Every item due at `now` reaches the sorted due list. */
  lemma DueItemIsListed(items: seq<SRSItem>, now: real, x: SRSItem)
    requires x in items && x.nextReview <= now
    ensures (x, x.nextReview) in SortByReview(Filter(Snapshot(items), DueAt(now)))
  {
    var snap := Snapshot(items);
    var due := Filter(snap, DueAt(now));
    var k :| 0 <= k < |items| && items[k] == x;
    assert snap[k] == (x, x.nextReview);
    assert snap[k] in due;
    assert (x, x.nextReview) in multiset(due);
    assert (x, x.nextReview) in multiset(SortByReview(due));
  }

  /** The due list is ordered by review time, most overdue first. */
  lemma DueItemsEarliestFirst(items: seq<SRSItem>, now: real)
    ensures forall i, j :: 0 <= i < j < |DueItems(items, now)| ==>
              DueItems(items, now)[i].nextReview <= DueItems(items, now)[j].nextReview
  {
    var sorted := SortByReview(Filter(Snapshot(items), DueAt(now)));
    var r := DueItems(items, now);
    assert r == Items(sorted);
    forall k | 0 <= k < |sorted| ensures sorted[k].1 == r[k].nextReview {
      SortedDueStamps(items, now, sorted[k]);
    }
  }

  /** The due list holds exactly the items due at `now`. */
  lemma DueItemsAreTheDueOnes(items: seq<SRSItem>, now: real)
    ensures forall x :: x in DueItems(items, now) <==> x in items && x.nextReview <= now
  {
    var sorted := SortByReview(Filter(Snapshot(items), DueAt(now)));
    var r := DueItems(items, now);
    assert r == Items(sorted);
    forall x ensures x in r <==> x in items && x.nextReview <= now {
      if x in r {
        var k :| 0 <= k < |r| && r[k] == x;
        SortedDueStamps(items, now, sorted[k]);
      }
      if x in items && x.nextReview <= now {
        DueItemIsListed(items, now, x);
        var k :| 0 <= k < |sorted| && sorted[k] == (x, x.nextReview);
        assert r[k] == x;
      }
    }
  }

  /** The due list keeps every copy of a due item and no copy of any other: it is a
      permutation of the items due at `now`. */
  lemma DueItemsCount(items: seq<SRSItem>, now: real, x: SRSItem)
    ensures multiset(DueItems(items, now))[x] == if x.nextReview <= now then multiset(items)[x] else 0
  {
    var snap := Snapshot(items);
    var due := Filter(snap, DueAt(now));
    var sorted := SortByReview(due);
    forall k | 0 <= k < |sorted| ensures sorted[k].1 == sorted[k].0.nextReview {
      SortedDueStamps(items, now, sorted[k]);
    }
    ItemsCount(sorted, x);
    FilterCount(snap, DueAt(now), (x, x.nextReview));
    SnapshotCount(items, x);
  }

  /** Counted over every item at once: the due list is a permutation of the due items. */
  lemma DueItemsArePermutation(items: seq<SRSItem>, now: real)
    ensures forall x: SRSItem :: multiset(DueItems(items, now))[x] == if x.nextReview <= now then multiset(items)[x] else 0
  {
    forall x: SRSItem ensures multiset(DueItems(items, now))[x] == if x.nextReview <= now then multiset(items)[x] else 0 {
      DueItemsCount(items, now, x);
    }
  }

  /** Dropping the stamps of consistently stamped entries keeps the count of every item. */
  lemma {:induction false} ItemsCount(s: seq<Stamped>, x: SRSItem)
    requires forall k :: 0 <= k < |s| ==> s[k].1 == s[k].0.nextReview
    ensures multiset(Items(s))[x] == multiset(s)[(x, x.nextReview)]
  {
    if s != [] {
      assert s == [s[0]] + s[1..];
      assert Items(s) == [s[0].0] + Items(s[1..]);
      ItemsCount(s[1..], x);
    }
  }

  /** Each item occurs in the snapshot, with its current stamp, as often as in the list. */
  lemma {:induction false} SnapshotCount(items: seq<SRSItem>, x: SRSItem)
    ensures multiset(Snapshot(items))[(x, x.nextReview)] == multiset(items)[x]
  {
    if items != [] {
      assert items == [items[0]] + items[1..];
      assert Snapshot(items) == [(items[0], items[0].nextReview)] + Snapshot(items[1..]);
      SnapshotCount(items[1..], x);
    }
  }

  /** Two overdue items and one in the future: only the overdue ones, the older first. */
  lemma DueItemsExample(a: SRSItem, b: SRSItem, c: SRSItem, now: real)
    requires a.nextReview == now - 100.0 && b.nextReview == now + 1000.0 && c.nextReview == now - 50.0
    ensures DueItems([a, b, c], now) == [a, c]
  {
    var pa, pc := (a, a.nextReview), (c, c.nextReview);
    DueOfThree(a, b, c, now);
    SortOrderedPair(pa, pc);
    ItemsOfPair(pa, pc);
  }

  lemma DueOfThree(a: SRSItem, b: SRSItem, c: SRSItem, now: real)
    requires a.nextReview <= now && b.nextReview > now && c.nextReview <= now
    ensures Filter(Snapshot([a, b, c]), DueAt(now)) == [(a, a.nextReview), (c, c.nextReview)]
  {
    assert Snapshot([a, b, c]) == [(a, a.nextReview), (b, b.nextReview), (c, c.nextReview)];
    FilterSkipsMiddle((a, a.nextReview), (b, b.nextReview), (c, c.nextReview), DueAt(now));
  }

  lemma ItemsOfPair(pa: Stamped, pc: Stamped)
    ensures Items([pa, pc]) == [pa.0, pc.0]
  {
    assert [pa, pc][1..] == [pc];
  }

  lemma FilterSkipsMiddle(pa: Stamped, pb: Stamped, pc: Stamped, due: Stamped -> bool)
    requires due(pa) && !due(pb) && due(pc)
    ensures Filter([pa, pb, pc], due) == [pa, pc]
  {
    assert [pb, pc][1..] == [pc];
    assert [pa, pb, pc][1..] == [pb, pc];
  }

  lemma SortOrderedPair(pa: Stamped, pc: Stamped)
    requires pa.1 <= pc.1
    ensures SortByReview([pa, pc]) == [pa, pc]
  {
    assert [pa, pc][1..] == [pc];
    assert SortByReview([pc]) == [pc];
  }
}

=== FILE: text.dfy ===
/** String handling shared by the typing phases: `trim()`, `toLowerCase()`, the phase-3
    tone-mark table, `startsWith` and the `parseInt(e.key)` of the digit shortcuts. */
module Text {
  import opened Wrappers

  // ---------------------------------------------------------------- trim()

  /** The characters JavaScript's `String.prototype.trim` removes: white space and line terminators. */
  predicate IsSpace(c: char)
  {
    ('\t' <= c <= '\r') || c == ' ' || c == '\U{A0}' || c == '\U{1680}'
    || ('\U{2000}' <= c <= '\U{200A}') || c == '\U{2028}' || c == '\U{2029}'
    || c == '\U{202F}' || c == '\U{205F}' || c == '\U{3000}' || c == '\U{FEFF}'
  }

  /** The number of white-space characters `s` starts with. */
  function LeadingSpaces(s: string): (n: nat)
    ensures n <= |s|
  {
    if s == [] || !IsSpace(s[0]) then 0 else 1 + LeadingSpaces(s[1..])
  }

  /** The number of white-space characters `s` ends with. */
  function TrailingSpaces(s: string): (n: nat)
    ensures n <= |s|
  {
    if s == [] || !IsSpace(s[|s| - 1]) then 0 else 1 + TrailingSpaces(s[..|s| - 1])
  }

  /** Drops leading white space: the result is a suffix of `s`. */
  function TrimStart(s: string): (r: string)
    ensures |r| <= |s| && r == s[|s| - |r|..]
  {
    s[LeadingSpaces(s)..]
  }

  /** Drops trailing white space: the result is a prefix of `s`. */
  function TrimEnd(s: string): (r: string)
    ensures |r| <= |s| && r == s[..|r|]
  {
    s[..|s| - TrailingSpaces(s)]
  }

  /** Only white space is cut from the front, and what is left starts with a non-space. */
  lemma {:induction false} TrimStartCuts(s: string)
    ensures forall k :: 0 <= k < |s| - |TrimStart(s)| ==> IsSpace(s[k])
    ensures TrimStart(s) == [] || !IsSpace(TrimStart(s)[0])
  {
    if s != [] && IsSpace(s[0]) {
      TrimStartCuts(s[1..]);
      forall k | 1 <= k < |s| - |TrimStart(s)| ensures IsSpace(s[k]) {
        assert s[k] == s[1..][k - 1];
      }
    }
  }

  /** Only white space is cut from the back, and what is left ends with a non-space. */
  lemma {:induction false} TrimEndCuts(s: string)
    ensures forall k :: |TrimEnd(s)| <= k < |s| ==> IsSpace(s[k])
    ensures TrimEnd(s) == [] || !IsSpace(TrimEnd(s)[|TrimEnd(s)| - 1])
  {
    if s != [] && IsSpace(s[|s| - 1]) {
      TrimEndCuts(s[..|s| - 1]);
      forall k | |TrimEnd(s)| <= k < |s| - 1 ensures IsSpace(s[k]) {
        assert s[k] == s[..|s| - 1][k];
      }
    }
  }

  /** `s.trim()`: never longer than `s`, and neither starts nor ends with white space. */
  function Trim(s: string): (r: string)
    ensures |r| <= |s|
    ensures r == [] || (!IsSpace(r[0]) && !IsSpace(r[|r| - 1]))
  {
    var t := TrimStart(s);
    TrimStartCuts(s);
    TrimEndCuts(t);
    assert TrimEnd(t) == [] || TrimEnd(t)[0] == t[0];
    TrimEnd(t)
  }

  /** `s.trim()` is the slice of `s` left after cutting white space off both ends: it
      neither starts nor ends with white space, and only white space was cut. */
  lemma TrimProperties(s: string)
    ensures var r := Trim(s); var i := |s| - |TrimStart(s)|;
            && (r == [] || (!IsSpace(r[0]) && !IsSpace(r[|r| - 1])))
            && i + |r| <= |s| && r == s[i..i + |r|]
            && (forall k :: 0 <= k < i ==> IsSpace(s[k]))
            && (forall k :: i + |r| <= k < |s| ==> IsSpace(s[k]))
  {
    TrimEndsNotSpace(s);
    TrimIsSlice(s);
    TrimCutsOnlySpace(s);
  }

  lemma TrimIsSlice(s: string)
    ensures var i := |s| - |TrimStart(s)|; i + |Trim(s)| <= |s| && Trim(s) == s[i..i + |Trim(s)|]
  {
    var t := TrimStart(s);
    var r := TrimEnd(t);
    var i := |s| - |t|;
    assert t == s[i..];
    assert r == t[..|r|];
  }

  lemma TrimCutsOnlySpace(s: string)
    ensures var i := |s| - |TrimStart(s)|;
            && (forall k :: 0 <= k < i ==> IsSpace(s[k]))
            && (forall k :: i + |Trim(s)| <= k < |s| ==> IsSpace(s[k]))
  {
    var t := TrimStart(s);
    TrimStartCuts(s);
    TrimEndCuts(t);
    TrimmedTailIsSpace(s, t, TrimEnd(t), |s| - |t|);
  }

  lemma TrimmedTailIsSpace(s: string, t: string, r: string, i: nat)
    requires i <= |s| && t == s[i..] && |r| <= |t|
    requires forall k :: |r| <= k < |t| ==> IsSpace(t[k])
    ensures forall k :: i + |r| <= k < |s| ==> IsSpace(s[k])
  {
    forall k | i + |r| <= k < |s|
      ensures IsSpace(s[k])
    {
      assert s[k] == t[k - i];
    }
  }

  lemma TrimEndsNotSpace(s: string)
    ensures |Trim(s)| <= |s|
    ensures Trim(s) == [] || (!IsSpace(Trim(s)[0]) && !IsSpace(Trim(s)[|Trim(s)| - 1]))
  {
    var t := TrimStart(s);
    var r := TrimEnd(t);
    TrimStartCuts(s);
    TrimEndCuts(t);
    if r != [] {
      assert r[0] == t[0];
    }
  }

  /** Trimming an already trimmed string changes nothing. */
  lemma TrimIdempotent(s: string)
    ensures Trim(Trim(s)) == Trim(s)
  {
    var r := Trim(s);
    TrimEndsNotSpace(s);
    if r != [] {
      assert TrimStart(r) == r;
      assert TrimEnd(r) == r;
    }
  }

  /** A string trims to nothing exactly when all its characters are white space. */
  lemma TrimEmptyIffBlank(s: string)
    ensures Trim(s) == [] <==> forall k :: 0 <= k < |s| ==> IsSpace(s[k])
  {
    TrimCutsOnlySpace(s);
    if forall k :: 0 <= k < |s| ==> IsSpace(s[k]) {
      BlankTrimsToEmpty(s);
    }
  }

  lemma {:induction false} BlankTrimsToEmpty(s: string)
    requires forall k :: 0 <= k < |s| ==> IsSpace(s[k])
    ensures TrimStart(s) == []
  {
    if s != [] {
      BlankTrimsToEmpty(s[1..]);
    }
  }

  // ---------------------------------------------------------------- toLowerCase()

  /** The capital letters whose lower-case form the model knows: ASCII, Latin-1 and the
      capital pinyin vowels with tone marks. */
  predicate IsUpper(c: char)
  {
    ('A' <= c <= 'Z') || ('\U{C0}' <= c <= '\U{DE}' && c != '\U{D7}')
    || c == 'Ā' || c == 'Ē' || c == 'Ě' || c == 'Ī' || c == 'Ō' || c == 'Ū'
    || c == 'Ǎ' || c == 'Ǐ' || c == 'Ǒ' || c == 'Ǔ' || c == 'Ǖ' || c == 'Ǘ' || c == 'Ǚ' || c == 'Ǜ'
  }

  /** The lower-case form of one character; anything that is not a known capital is kept. */
  function LowerChar(c: char): char
  {
    if ('A' <= c <= 'Z') || ('\U{C0}' <= c <= '\U{DE}' && c != '\U{D7}') then (c as int + 32) as char
    else if IsUpper(c) then (c as int + 1) as char
    else c
  }

  /** A lower-cased character is never a capital; exactly the capitals change; white space
      stays white space and nothing else becomes white space. */
  lemma LowerCharProperties(c: char)
    ensures !IsUpper(LowerChar(c))
    ensures !IsUpper(c) ==> LowerChar(c) == c
    ensures IsUpper(c) ==> LowerChar(c) != c
    ensures IsSpace(LowerChar(c)) <==> IsSpace(c)
  {
  }

  /** `s.toLowerCase()`, character by character: no capital is left, every other
      character stays in its place, and white space stays exactly where it was. */
  function Lower(s: string): (r: string)
    ensures |r| == |s|
    ensures forall k :: 0 <= k < |s| ==> !IsUpper(r[k]) && (IsSpace(r[k]) <==> IsSpace(s[k]))
    ensures forall k :: 0 <= k < |s| && !IsUpper(s[k]) ==> r[k] == s[k]
  {
    var r := seq(|s|, k requires 0 <= k < |s| => LowerChar(s[k]));
    LowerEach(s, r);
    r
  }

  lemma LowerEach(s: string, r: string)
    requires |r| == |s| && forall k :: 0 <= k < |s| ==> r[k] == LowerChar(s[k])
    ensures forall k :: 0 <= k < |s| ==> !IsUpper(r[k]) && (IsSpace(r[k]) <==> IsSpace(s[k]))
    ensures forall k :: 0 <= k < |s| && !IsUpper(s[k]) ==> r[k] == s[k]
  {
    forall k | 0 <= k < |s| ensures !IsUpper(r[k]) && (IsSpace(r[k]) <==> IsSpace(s[k])) && (!IsUpper(s[k]) ==> r[k] == s[k]) {
      LowerCharProperties(s[k]);
    }
  }

  /** A string without capitals is its own lower-case form. */
  lemma LowerKeepsPlain(s: string)
    ensures (forall k :: 0 <= k < |s| ==> !IsUpper(s[k])) ==> Lower(s) == s
  {
  }

  /** Lower-casing leaves no capital, keeps every other character in place, keeps white
      space where it was, and doing it twice is doing it once. */
  lemma LowerProperties(s: string)
    ensures forall k :: 0 <= k < |s| ==> !IsUpper(Lower(s)[k])
    ensures forall k :: 0 <= k < |s| && !IsUpper(s[k]) ==> Lower(s)[k] == s[k]
    ensures forall k :: 0 <= k < |s| ==> (IsSpace(Lower(s)[k]) <==> IsSpace(s[k]))
    ensures Lower(Lower(s)) == Lower(s)
  {
    var r := Lower(s);
    forall k | 0 <= k < |s|
      ensures !IsUpper(r[k]) && (!IsUpper(s[k]) ==> r[k] == s[k]) && (IsSpace(r[k]) <==> IsSpace(s[k]))
      ensures LowerChar(r[k]) == r[k]
    {
      LowerCharProperties(s[k]);
      LowerCharProperties(r[k]);
    }
  }

  /** The answer normaliser of every typing phase: `input.value.trim().toLowerCase()`. It is
      never longer than the input, has no capital and no white space at either end. */
  function NormalizeAnswer(raw: string): (answer: string)
    ensures |answer| <= |raw|
    ensures forall k :: 0 <= k < |answer| ==> !IsUpper(answer[k])
    ensures answer == [] || (!IsSpace(answer[0]) && !IsSpace(answer[|answer| - 1]))
  {
    Lower(Trim(raw))
  }

  /** A normalised answer is empty exactly when the input was blank: the `if (!answer) return`
      of every typing handler ignores precisely the all-white-space inputs. */
  lemma NormalizedEmptyIffBlank(raw: string)
    ensures NormalizeAnswer(raw) == [] <==> forall k :: 0 <= k < |raw| ==> IsSpace(raw[k])
  {
    TrimEmptyIffBlank(raw);
  }

  /** A normalised answer has no capital letter, no white space at either end, and is never
      longer than the input. */
  lemma NormalizedShape(raw: string)
    ensures var answer := NormalizeAnswer(raw);
            && |answer| <= |raw|
            && (forall k :: 0 <= k < |answer| ==> !IsUpper(answer[k]))
            && (answer == [] || (!IsSpace(answer[0]) && !IsSpace(answer[|answer| - 1])))
  {
    var t := Trim(raw);
    var answer := Lower(t);
    TrimEndsNotSpace(raw);
    LowerProperties(t);
  }

  /** Normalising an answer twice is normalising it once. */
  lemma NormalizeAnswerIdempotent(raw: string)
    ensures NormalizeAnswer(NormalizeAnswer(raw)) == NormalizeAnswer(raw)
  {
    var answer := NormalizeAnswer(raw);
    NormalizedShape(raw);
    if answer != [] {
      assert TrimStart(answer) == answer;
      assert TrimEnd(answer) == answer;
    }
    assert Trim(answer) == answer;
    LowerProperties(Trim(raw));
  }

  // ---------------------------------------------------------------- phase-3 tone table

  /** The 24 lower-case vowels with a tone mark that phase 3 rewrites. */
  predicate IsToned(c: char)
  {
    || c == 'ā' || c == 'á' || c == 'ǎ' || c == 'à' || c == 'ē' || c == 'é' || c == 'ě' || c == 'è'
    || c == 'ī' || c == 'í' || c == 'ǐ' || c == 'ì' || c == 'ō' || c == 'ó' || c == 'ǒ' || c == 'ò'
    || c == 'ū' || c == 'ú' || c == 'ǔ' || c == 'ù' || c == 'ǖ' || c == 'ǘ' || c == 'ǚ' || c == 'ǜ'
  }

  /** The replacement table of `handlePhase3Input`: a toned vowel becomes its base letter
      (ü with a tone becomes `v`); every other character, bare ü included, is kept. */
  function ToneBase(c: char): (b: char)
    ensures IsToned(c) ==> b == 'a' || b == 'e' || b == 'i' || b == 'o' || b == 'u' || b == 'v'
    ensures c == 'ā' || c == 'á' || c == 'ǎ' || c == 'à' ==> b == 'a'
    ensures c == 'ē' || c == 'é' || c == 'ě' || c == 'è' ==> b == 'e'
    ensures c == 'ī' || c == 'í' || c == 'ǐ' || c == 'ì' ==> b == 'i'
    ensures c == 'ō' || c == 'ó' || c == 'ǒ' || c == 'ò' ==> b == 'o'
    ensures c == 'ū' || c == 'ú' || c == 'ǔ' || c == 'ù' ==> b == 'u'
    ensures c == 'ǖ' || c == 'ǘ' || c == 'ǚ' || c == 'ǜ' ==> b == 'v'
    ensures !IsToned(c) ==> b == c
  {
    if (c == 'ā' || c == 'á' || c == 'ǎ' || c == 'à') then 'a'
    else if (c == 'ē' || c == 'é' || c == 'ě' || c == 'è') then 'e'
    else if (c == 'ī' || c == 'í' || c == 'ǐ' || c == 'ì') then 'i'
    else if (c == 'ō' || c == 'ó' || c == 'ǒ' || c == 'ò') then 'o'
    else if (c == 'ū' || c == 'ú' || c == 'ǔ' || c == 'ù') then 'u'
    else if (c == 'ǖ' || c == 'ǘ' || c == 'ǚ' || c == 'ǜ') then 'v'
    else c
  }

  /** The tone-stripping `replace`: same length, no toned vowel left, other characters in place. */
  function StripTones(s: string): (r: string)
    ensures |r| == |s|
    ensures forall k :: 0 <= k < |s| ==> r[k] == ToneBase(s[k])
  {
    seq(|s|, k requires 0 <= k < |s| => ToneBase(s[k]))
  }

  /** No toned vowel survives stripping, and every other character stays in place. */
  lemma StripTonesProperties(s: string)
    ensures forall k :: 0 <= k < |s| ==> !IsToned(StripTones(s)[k])
    ensures forall k :: 0 <= k < |s| && !IsToned(s[k]) ==> StripTones(s)[k] == s[k]
  {
    var r := StripTones(s);
    forall k | 0 <= k < |s| ensures !IsToned(r[k]) {
      ToneBaseIsPlain(s[k]);
    }
  }

  /** The base letters are not themselves toned. */
  lemma ToneBaseIsPlain(c: char)
    ensures !IsToned(ToneBase(c))
  {
    var b := ToneBase(c);
    if IsToned(c) {
      assert b == 'a' || b == 'e' || b == 'i' || b == 'o' || b == 'u' || b == 'v';
      assert !IsToned('a') && !IsToned('e') && !IsToned('i');
      assert !IsToned('o') && !IsToned('u') && !IsToned('v');
    }
  }

  /** A string without toned vowels is its own tone-stripped form. */
  lemma StripTonesKeepsPlain(s: string)
    ensures (forall k :: 0 <= k < |s| ==> !IsToned(s[k])) ==> StripTones(s) == s
  {
  }

  /** Stripping twice is stripping once. */
  lemma StripTonesIdempotent(s: string)
    ensures StripTones(StripTones(s)) == StripTones(s)
  {
    StripTonesProperties(StripTones(s));
    StripTonesProperties(s);
  }

  /** A toned syllable loses its marks and nothing else. */
  lemma StripTonesExample()
    ensures StripTones("hǎo") == "hao"
  {
    var r := StripTones("hǎo");
    assert r[0] == 'h' && r[1] == ToneBase('ǎ') == 'a' && r[2] == 'o';
  }

  // ---------------------------------------------------------------- startsWith, parseInt

  /** `s.startsWith(prefix)`. */
  predicate StartsWith(s: string, prefix: string)
  {
    |prefix| <= |s| && s[..|prefix|] == prefix
  }

  predicate IsDigit(c: char) { '0' <= c <= '9' }

  /** The value of a run of decimal digits. */
  function DigitsValue(ds: string): (v: nat)
    requires forall k :: 0 <= k < |ds| ==> IsDigit(ds[k])
    ensures |ds| == 1 ==> v == ds[0] as int - '0' as int
  {
    if ds == [] then 0
    else
      var last := ds[|ds| - 1];
      assert IsDigit(last);
      assert |ds| == 1 ==> ds[..|ds| - 1] == [];
      DigitsValue(ds[..|ds| - 1]) * 10 + (last as int - '0' as int)
  }

  /** The length of the run of decimal digits that starts `s`. */
  function DigitRun(s: string): (n: nat)
    ensures n <= |s|
    ensures forall k :: 0 <= k < n ==> IsDigit(s[k])
    ensures n < |s| ==> !IsDigit(s[n])
    ensures s != [] && IsDigit(s[0]) ==> n > 0
  {
    if s == [] || !IsDigit(s[0]) then 0 else 1 + DigitRun(s[1..])
  }

  /** `parseInt(key)` for the values `KeyboardEvent.key` takes: the leading decimal digits,
      or `None` (NaN) when the key does not start with a digit ("Enter", "a", " "). */
  function ParseKey(key: string): (r: Option<nat>)
    ensures r.None? <==> (key == [] || !IsDigit(key[0]))
    ensures |key| == 1 && IsDigit(key[0]) ==> r == Some(key[0] as int - '0' as int)
  {
    var n := DigitRun(key);
    assert |key| == 1 && n == 1 ==> key[..n] == key && key[..n][..0] == [];
    if n == 0 then None else Some(DigitsValue(key[..n]))
  }
}

=== FILE: words.dfy ===
/** Phase 4 (words): the built-in `COMMON_WORDS` list, the `App.phase4` record, `startPhase4`
    and `handlePhase4Input` with the automatic restart of `showPhase4Card`. */
module Words {
  import opened Wrappers
  import opened Seqs
  import opened Text
  import opened Shuffling
  import opened Drill

  /** A two-character word and its toneless pinyin, syllables separated by one space. */
  datatype Word = Word(word: string, pinyin: string)

  /** The fixed practice list. */
  const CommonWords: seq<Word> := [
    Word("你好", "ni hao"), Word("謝謝", "xie xie"), Word("不是", "bu shi"), Word("可以", "ke yi"),
    Word("什麼", "shen me"), Word("知道", "zhi dao"), Word("時候", "shi hou"), Word("現在", "xian zai"),
    Word("怎麼", "zen me"), Word("已經", "yi jing"), Word("因為", "yin wei"), Word("所以", "suo yi"),
    Word("如果", "ru guo"), Word("但是", "dan shi"), Word("還是", "hai shi"), Word("或者", "huo zhe"),
    Word("一起", "yi qi"), Word("覺得", "jue de"), Word("應該", "ying gai"), Word("然後", "ran hou"),
    Word("非常", "fei chang"), Word("可能", "ke neng"), Word("需要", "xu yao"), Word("開始", "kai shi"),
    Word("問題", "wen ti"), Word("學習", "xue xi"), Word("工作", "gong zuo"), Word("生活", "sheng huo"),
    Word("朋友", "peng you"), Word("電話", "dian hua"), Word("公司", "gong si"), Word("學校", "xue xiao"),
    Word("老師", "lao shi"), Word("同學", "tong xue"), Word("喜歡", "xi huan"), Word("漂亮", "piao liang"),
    Word("認為", "ren wei"), Word("準備", "zhun bei"), Word("影響", "ying xiang"), Word("重要", "zhong yao"),
    Word("發現", "fa xian"), Word("環境", "huan jing"), Word("經濟", "jing ji"), Word("社會", "she hui"),
    Word("政府", "zheng fu"), Word("國家", "guo jia"), Word("世界", "shi jie"), Word("歷史", "li shi"),
    Word("文化", "wen hua"), Word("科技", "ke ji"), Word("健康", "jian kang"), Word("教育", "jiao yu"),
    Word("自己", "zi ji"), Word("大家", "da jia"), Word("一樣", "yi yang"), Word("地方", "di fang"),
    Word("東西", "dong xi"), Word("多少", "duo shao"), Word("這樣", "zhe yang"), Word("那個", "na ge"),
    Word("電腦", "dian nao"), Word("網路", "wang lu"), Word("手機", "shou ji"), Word("音樂", "yin yue"),
    Word("運動", "yun dong"), Word("旅行", "lv xing"), Word("飛機", "fei ji"), Word("醫院", "yi yuan"),
    Word("銀行", "yin hang"), Word("超市", "chao shi"), Word("早上", "zao shang"), Word("晚上", "wan shang"),
    Word("下午", "xia wu"), Word("明天", "ming tian"), Word("昨天", "zuo tian"), Word("今天", "jin tian"),
    Word("星期", "xing qi"), Word("月亮", "yue liang"), Word("太陽", "tai yang"), Word("天氣", "tian qi"),
    Word("吃飯", "chi fan"), Word("睡覺", "shui jiao"), Word("說話", "shuo hua"), Word("走路", "zou lu"),
    Word("開車", "kai che"), Word("游泳", "you yong"), Word("唱歌", "chang ge"), Word("跳舞", "tiao wu"),
    Word("看書", "kan shu"), Word("寫字", "xie zi"), Word("考試", "kao shi"), Word("上班", "shang ban"),
    Word("下班", "xia ban"), Word("回家", "hui jia"), Word("出門", "chu men"), Word("進來", "jin lai"),
    Word("出去", "chu qu"), Word("上去", "shang qu"), Word("下來", "xia lai"), Word("過來", "guo lai"),
    Word("起來", "qi lai"), Word("回去", "hui qu"), Word("容易", "rong yi"), Word("困難", "kun nan"),
    Word("簡單", "jian dan"), Word("複雜", "fu za"), Word("快樂", "kuai le"), Word("幸福", "xing fu"),
    Word("安全", "an quan"), Word("危險", "wei xian")  ]

  /** How many words one round draws. */
  const RoundSize: nat := 20

  /** The list is long enough for every round to have exactly 20 words. */
  lemma CommonWordsSize()
    ensures |CommonWords| == 110
  {
  }

  /** The comparison of `handlePhase4Input`: the normalised answer against the lower-cased
      pinyin. A matching answer has no capitals, and for the list's lower-case pinyin the
      comparison is plain equality. */
  predicate WordMatch(answer: string, w: Word)
    ensures WordMatch(answer, w) ==>
              |answer| == |w.pinyin| && forall k :: 0 <= k < |answer| ==> !IsUpper(answer[k])
    ensures (forall k :: 0 <= k < |w.pinyin| ==> !IsUpper(w.pinyin[k])) ==>
              (WordMatch(answer, w) <==> answer == w.pinyin)
  {
    LowerKeepsPlain(w.pinyin);
    answer == Lower(w.pinyin)
  }

  class WordDrill {
    /** The list rounds are drawn from; always `CommonWords`. */
    const words: seq<Word>
    var items: seq<Word>
    var current: nat
    var correct: nat
    var wrong: nat

    /** Before the first round nothing is loaded; during a round there is always a card
        showing, because a finished round is replaced by a fresh one at once. */
    ghost predicate Valid()
      reads this
    {
      && correct + wrong == current
      && (items == [] ==> current == 0)
      && (items != [] ==> |items| == RoundSize && current < |items|)
      && |words| >= RoundSize
      && multiset(items) <= multiset(words)
    }

    /** The card on screen, if a round is running. */
    predicate Active()
      reads this
    {
      current < |items|
    }

    /** The initial `App.phase4` record. */
    constructor ()
      ensures Valid() && words == CommonWords
      ensures items == [] && current == 0 && correct == 0 && wrong == 0
    {
      CommonWordsSize();
      words := CommonWords;
      items := [];
      current, correct, wrong := 0, 0, 0;
    }

    /** `startPhase4`: the first 20 words of a shuffle of the list, so drawn without
        replacement; counters at zero. */
    method Start(rolls: seq<real>)
      requires |words| >= RoundSize && ValidRolls(rolls)
      modifies this
      ensures Valid() && Active()
      ensures |items| == RoundSize && multiset(items) <= multiset(words)
      ensures current == 0 && correct == 0 && wrong == 0
    {
      var shuffled := Shuffle(words, rolls);
      items := Take(shuffled, RoundSize);
      assert shuffled == items + shuffled[RoundSize..];
      assert multiset(shuffled) == multiset(items) + multiset(shuffled[RoundSize..]);
      current, correct, wrong := 0, 0, 0;
    }

    /** `handlePhase4Input` followed by the advance: a blank answer is ignored; otherwise
        exactly one counter grows, XP only for a right answer, no review is reported. After
        the twentieth answer a new round starts from `rolls`, so the drill never stops. */
    method Submit(raw: string, rolls: seq<real>) returns (o: Outcome)
      requires Valid() && Active() && ValidRolls(rolls)
      modifies this
      ensures Valid() && Active()
      ensures NormalizeAnswer(raw) == [] ==> o == Ignored && unchanged(this)
      ensures NormalizeAnswer(raw) != [] ==>
                var ok := WordMatch(NormalizeAnswer(raw), old(items[current]));
                && o == Judged(ok, XpFor(ok), None)
                && (old(current) + 1 < RoundSize ==>
                      && items == old(items) && current == old(current) + 1
                      && correct == old(correct) + (if ok then 1 else 0)
                      && wrong == old(wrong) + (if ok then 0 else 1))
                && (old(current) + 1 == RoundSize ==> current == 0 && correct == 0 && wrong == 0)
    {
      var answer := NormalizeAnswer(raw);
      if answer == [] {
        return Ignored;
      }
      var ok := WordMatch(answer, items[current]);
      if ok {
        correct := correct + 1;
      } else {
        wrong := wrong + 1;
      }
      o := Judged(ok, XpFor(ok), None);
      current := current + 1;
      if current >= |items| {
        Start(rolls);
      }
    }
  }
}

=== FILE: wrappers.dfy ===
/** Optional values, for JavaScript's `null`/`undefined`/`NaN` and Python's `None`. */
module Wrappers {
  datatype Option<+T> = None | Some(value: T)
}
